=== FILE: README.md ===
# orm-shacl: a Dafny model of the SHACL class generators

This project models two pieces of code that turn a SHACL shapes graph into Python classes.

- `orm_shacl/shacl_class_generator.py` (`generate_classes`) walks every `sh:Shape` and then every `sh:NodeShape`. Each shape becomes a class registered by name, together with a `Schema` record for the code emitter.
  - For each property, `parse_class` demands `sh:name` and `sh:path`. It then settles the value kind: an explicit `sh:datatype`, else a nested `sh:node` shape that must already be registered, else `xsd:string`. It also reads `sh:maxCount`.
  - Identifiers are rewritten as `PREFIX.local` by `convert_namespace_identifier`.
- The top-level `shacl_class_generator.py` is the older script.
  - It scans each `sh:NodeShape` into `paths`, `data_types` and `max_counts` dictionaries plus one `RDFProperty` descriptor per property name. The resulting classes are filed in `shape_by_targetClass`.
  - `AbstractRDFMetadata.__init__` binds an instance from a metadata graph.
  - The descriptors `RDFProperty` and `RDFNestedProperty` keep each value under `"_" + name`.

## How the model works

The graph is a sequence of triples. rdflib's `value` is the first matching triple, and a `None` query position matches anything. `value(predicate=p, object=None)` gives `None`, because rdflib answers nothing when two positions are unbound.

Python behaviour that decides branches is written out:

- the truthiness of terms (a literal is falsy when its Python value is, so `sh:maxCount 0` keeps the raw term);
- the `AttributeError` of `.value` on a missing or non-literal term;
- the `ValueError` of `str.split` on an empty namespace base;
- the `TypeError` of `"_" + name` and of `type(...)` on a non-string name;
- `KeyError` on `_data_types[name]`, and the `TypeError` of subscripting text or `None` when a property hides that dictionary;
- the `TypeError` and `AttributeError` of `setattr` on the built-in `__class__`, `__dict__` and `__weakref__`, which a property reaches when its `"_" + name` is one of them;
- Python's attribute lookup. A data descriptor of the class wins over the instance's own attribute, which wins over the class dictionary. So a property named `_paths`, `_target_class` or `_data_types` hides the class attribute of that name.

Python dictionaries are insertion-ordered association lists (`PyDict`), because the binder iterates `_paths.items()` in order. An exception is an `Err` of `Outcomes.Error`, and it aborts the whole run. Functions the code calls but does not define (`extract_name`, `from_datatype`, `repr`) are parameters.

Modules: `Outcomes` (results and the abort-on-first-error loops), `PyStr`, `PyDict`, `Rdf`, `Namespaces`, `ShapeCompiler`, `Descriptors`, `ShapeScanner`, `Binder`.

## Model

| member | source | states |
|---|---|---|
| PyStr.Split1 | orm_shacl/shacl_class_generator.py:33 | `split(sep, 1)` fails exactly on an empty separator. Otherwise it gives the text before and after the first occurrence, which rejoin to the input, or the input alone when `sep` does not occur |
| PyStr.Upper | orm_shacl/shacl_class_generator.py:28 | upper-casing keeps the length, maps each lower-case ASCII letter to its upper-case letter, leaves no lower-case ASCII letter and keeps every other character |
| Namespaces.Table | orm_shacl/shacl_class_generator.py:26-28 | the table has one entry per bound namespace, in the graph's order, with the prefix upper-cased and the base unchanged |
| Namespaces.Convert | orm_shacl/shacl_class_generator.py:30-34 | no match gives `None`. Otherwise the first base in table order that starts the identifier wins, giving `PREFIX + "." + rest`; an empty winning base is a `ValueError` |
| Namespaces.ConvertSplitsIdentifier | orm_shacl/shacl_class_generator.py:30-34 | a converted identifier is the winning prefix, a dot and `rest`, where `base + rest` gives back the identifier |
| Namespaces.ConvertUsesUpperPrefix | orm_shacl/shacl_class_generator.py:27-34 | for a graph-bound table, the output prefix is the upper-cased prefix of the first bound namespace whose base starts the identifier |
| Namespaces.ConvertSucceeds | orm_shacl/shacl_class_generator.py:30-34 | with no empty base in the table, conversion never raises |
| PyDict.PutGet | orm_shacl/shacl_class_generator.py:110 | after `d[k] = v`, `k` holds `v` and every other key holds what it held before |
| PyDict.PutKeys | orm_shacl/shacl_class_generator.py:110 | assignment keeps an existing key in its place and appends a new key last |
| PyDict.PutAllLastWins | shacl_class_generator.py:97-103 | after a run of assignments, a key holds the value of its last assignment |
| PyDict.PutAllKeys | shacl_class_generator.py:97-103 | after a run of assignments, a key is present exactly when it was before or some assignment names it |
| Rdf.ValueObject | orm_shacl/shacl_class_generator.py:56 | `value(s, p)` is `None` exactly when no triple has that subject and predicate, and otherwise is the object of the first such triple |
| Rdf.ValueSubject | shacl_class_generator.py:58 | `value(predicate=p, object=o)` is `None` when `o` is `None` or no triple matches, and otherwise is the subject of the first matching triple |
| Rdf.ValueAttr | orm_shacl/shacl_class_generator.py:62 | `.value` succeeds exactly on a literal and gives its Python value |
| Rdf.ObjectsAppend | shacl_class_generator.py:62-64 | the objects of a concatenated graph are those of the first part followed by those of the second, so objects come in triple order |
| Rdf.ObjectsMember | shacl_class_generator.py:64 | a term is listed by `objects(s, p)` exactly when some matching triple has it as object |
| ShapeCompiler.PropertyName | orm_shacl/shacl_class_generator.py:62-64 | a missing or non-literal `sh:name` is an `AttributeError`; a literal with no Python value is "sh:name is required"; otherwise the name is the literal's value |
| ShapeCompiler.Declare | orm_shacl/shacl_class_generator.py:70-75 | a truthy `sh:datatype` is kept and `sh:node` is not read. Otherwise a truthy `sh:node` is kept, or else the datatype becomes `xsd:string`. Exactly one of the two ends up truthy |
| ShapeCompiler.ReadMaxCount | orm_shacl/shacl_class_generator.py:76-78 | an absent `sh:maxCount` is `None`; a truthy literal gives its value; a falsy term stays as the term; a truthy non-literal is an `AttributeError` |
| ShapeCompiler.ResolveNested | orm_shacl/shacl_class_generator.py:83-86 | the lookup fails with "not a known schema" exactly when the name is not a key of `classes`. Otherwise it gives the class registered under that name |
| ShapeCompiler.ResolveKind | orm_shacl/shacl_class_generator.py:79-86 | it fails exactly when both are truthy ("both sh:node and sh:datatype") or a node alone names an unregistered shape ("not a known schema"). On success the kind is a datatype exactly when the datatype is truthy, and is then that term; otherwise it is the class registered under the node's name |
| ShapeCompiler.Emit | orm_shacl/shacl_class_generator.py:101-106 | the parameter tuple keeps name and `max_count`. The path and a datatype term are in prefixed form, and a nested class is given by its name. It succeeds exactly when the path and any datatype term convert; the only error is the empty-base `ValueError` |
| ShapeCompiler.ParseProperty | orm_shacl/shacl_class_generator.py:60-106 | the checks run in source order and the first failure aborts: a name error, then "sh:path is required", then a `sh:maxCount` error, then a kind error. Past those, the property compiles exactly when its prefixed forms do, and otherwise fails with the `ValueError` of an empty namespace base. The "both" error never occurs. `constraints` is always empty |
| ShapeCompiler.PropertyKind | orm_shacl/shacl_class_generator.py:70-86 | datatype takes precedence over node; with neither the kind is `xsd:string`; a node reference is a registered class with the referenced name |
| ShapeCompiler.UnknownNestedFails | orm_shacl/shacl_class_generator.py:82-85 | a `sh:node` reference to an unregistered name raises "not a known schema" once name, path and `sh:maxCount` read cleanly |
| ShapeCompiler.MaxCountFromGraph | orm_shacl/shacl_class_generator.py:76-78 | `max_count` is `None` when `sh:maxCount` is absent, the term itself when it is falsy, and the literal's value when it is a truthy literal; a compiled property never has a truthy non-literal `sh:maxCount` |
| ShapeCompiler.ParsePropertySucceeds | orm_shacl/shacl_class_generator.py:62-106 | a property whose name, path and `sh:maxCount` read cleanly and whose node reference, if any, is registered compiles when no namespace base is empty |
| ShapeCompiler.ParseProperties | orm_shacl/shacl_class_generator.py:60 | the property loop succeeds exactly when every property compiles, and gives one result per property, in order; when it fails, its error is the error of the first property that fails |
| ShapeCompiler.MissingNameOrPathAborts | orm_shacl/shacl_class_generator.py:62-68 | a property without `sh:name` or without `sh:path` makes `parse_class` fail |
| ShapeCompiler.ParseClass | orm_shacl/shacl_class_generator.py:48-114 | the shape compiles exactly when every property compiles and the target class converts. A failing property's error is the shape's error; past the properties, a target class that does not convert fails with the `ValueError` of an empty namespace base. A compiled shape adds its name to the registry keys (if new) and appends exactly one schema, named after the shape, keeping the earlier ones |
| ShapeCompiler.ParseClassSucceeds | orm_shacl/shacl_class_generator.py:55-113 | a shape whose properties all read cleanly and refer only to registered classes compiles when no namespace base is empty |
| ShapeCompiler.ParseClassEntry | orm_shacl/shacl_class_generator.py:109-110 | after `parse_class` the shape's name maps to the class built from its target class and compiled properties, and every other name maps to what it did before |
| ShapeCompiler.ParseClassRegisters | orm_shacl/shacl_class_generator.py:109-110 | the registered class has the shape's name and `sh:targetClass`, and no other registry entry changes |
| ShapeCompiler.ParseClassAttributes | orm_shacl/shacl_class_generator.py:99-100 | the class's attributes hold each property under its name, and the later of two properties with the same name wins |
| ShapeCompiler.ParseClassSchema | orm_shacl/shacl_class_generator.py:112-113 | the schema's target class is the prefixed `str(target_class)`, and it has one parameter tuple per property, in iteration order |
| ShapeCompiler.ParseAll | orm_shacl/shacl_class_generator.py:116-119 | a pass over no subjects leaves the registry and schemas as they were, and a failing first subject's error is the pass's error |
| ShapeCompiler.ParseAllKeys | orm_shacl/shacl_class_generator.py:116-119 | a pass adds exactly the names of its subjects to the registry keys |
| ShapeCompiler.ParseAllAppends | orm_shacl/shacl_class_generator.py:116-119 | a pass appends one schema per subject and keeps the earlier ones |
| ShapeCompiler.ParseAllSucceeds | orm_shacl/shacl_class_generator.py:116-119 | a pass compiles when every property reads cleanly and every node reference names a class known at the start or an earlier subject of the pass |
| ShapeCompiler.FoldResolvesEarlier | orm_shacl/shacl_class_generator.py:84-85 | within a pass, each nested reference of the `i`-th subject names a class known at the start of the pass or a subject before `i` |
| ShapeCompiler.GenerateClasses | orm_shacl/shacl_class_generator.py:116-119 | the run succeeds only when the `sh:Shape` pass, started from an empty registry, succeeds. A failing `sh:Shape` pass is the run's error; otherwise the run is the `sh:NodeShape` pass continued from its result |
| ShapeCompiler.GenerateClassesPasses | orm_shacl/shacl_class_generator.py:116-119 | the `sh:NodeShape` pass continues from the registry and schemas the `sh:Shape` pass left, whose schemas stay in front |
| ShapeCompiler.GenerateClassesShapeSchemas | orm_shacl/shacl_class_generator.py:116-117 | the schemas are one per `sh:Shape` subject in order, followed by the NodeShape ones |
| ShapeCompiler.GenerateClassesNodeShapeSchemas | orm_shacl/shacl_class_generator.py:118-119 | after the Shape schemas come one schema per `sh:NodeShape` subject, in order |
| ShapeCompiler.GenerateClassesKeys | orm_shacl/shacl_class_generator.py:116-119 | the returned classes are keyed by exactly the names of the Shape and NodeShape subjects |
| ShapeCompiler.GenerateClassesSucceeds | orm_shacl/shacl_class_generator.py:116-119 | a shapes graph with no empty namespace base, whose properties all read cleanly and whose node references each name a shape compiled earlier (Shapes first, then NodeShapes), compiles |
| ShapeCompiler.ShapeForwardReferenceFails | orm_shacl/shacl_class_generator.py:116-117 | a Shape whose node reference names no earlier Shape makes the whole run fail |
| ShapeCompiler.NodeShapeForwardReferenceFails | orm_shacl/shacl_class_generator.py:118-119 | a NodeShape whose node reference names neither a Shape nor an earlier NodeShape makes the whole run fail |
| ShapeCompiler.NodeShapeSeesEveryShape | orm_shacl/shacl_class_generator.py:116-119 | every Shape is registered before the NodeShape pass, so a NodeShape finds any Shape whatever the Shape order |
| Descriptors.Slot | shacl_class_generator.py:18-24 | the instance attribute an access finally reaches is never itself a descriptor name |
| Descriptors.SetAttr | shacl_class_generator.py:44-45 | `setattr`, through any chain of descriptors, reaches exactly one slot. It raises exactly when that slot is `__class__` or `__dict__` (`TypeError`) or `__weakref__` (`AttributeError`); otherwise it writes that slot and changes nothing else |
| Descriptors.GetAttr | shacl_class_generator.py:41-42 | `getattr` reads that same slot, and is an `AttributeError` naming the slot when the slot was never set |
| Descriptors.SlotShape | shacl_class_generator.py:39 | the slot an access reaches is the attribute's name behind one underscore per descriptor passed, and at least one exactly when the attribute is a descriptor |
| Descriptors.Get | shacl_class_generator.py:41-42 | `__get__` succeeds exactly when the slot behind `"_" + name` is set, and returns its value |
| Descriptors.Set | shacl_class_generator.py:44-45 | `__set__` raises exactly when the slot behind `"_" + name` is `__class__`, `__dict__` or `__weakref__`, with that slot's error; otherwise it gives the slot the value and keeps every other attribute |
| Descriptors.Delete | shacl_class_generator.py:47-48 | `__delete__` raises exactly as `__set__` does; otherwise it sets the slot behind `"_" + name` to `None` and keeps every other attribute |
| Descriptors.GetAfterSetOrDelete | shacl_class_generator.py:41-48 | after a `set(v)` that does not raise, `get` returns `v`; after such a `delete`, `get` returns `None` |
| Descriptors.SetStoresPrivateSlot | shacl_class_generator.py:39-45 | when `"_" + name` is no descriptor, `set` raises the built-in attribute's error if `"_" + name` is `__class__`, `__dict__` or `__weakref__`, and otherwise stores under `"_" + name` and changes nothing else |
| Descriptors.SetAttrLeavesOthers | shacl_class_generator.py:44-45 | an assignment that does not raise leaves every attribute that reaches another slot unchanged |
| Descriptors.SlotOfDescriptor | shacl_class_generator.py:39 | without shadowing, a descriptor's value lives in `"_" + name` |
| Descriptors.NestedLikePlain | shacl_class_generator.py:9-48 | `RDFNestedProperty` gets, sets and deletes exactly as `RDFProperty` does |
| ShapeScanner.ScanProperty | shacl_class_generator.py:95-103 | a missing or non-literal name is an `AttributeError`, and a literal name that is not a string is the `TypeError` of `RDFProperty`. Otherwise the record holds the raw path, `sh:maxCount` and `sh:datatype`, each `None` when absent |
| ShapeScanner.ScanProperties | shacl_class_generator.py:94-103 | the property loop succeeds exactly when every property scans, and gives one record per property, in order; when it fails, its error is the error of the first property that fails |
| ShapeScanner.ScanShape | shacl_class_generator.py:86-110 | property failures come first. Then a shape without `sh:name` is the `TypeError` of `type(None, ...)`, and a property named `__qualname__`, `__classcell__` or `__slots__` is the `TypeError` `type(...)` raises for that key; otherwise the shape scans. The class is filed under `sh:targetClass` and named by `sh:name` |
| ShapeScanner.BuildKeys | shacl_class_generator.py:90-103 | `paths`, `data_types`, `max_counts` and the descriptors have the same keys in the same order, with no duplicates. A key is present exactly when some property has that name |
| ShapeScanner.BuildEntries | shacl_class_generator.py:94-103 | each name maps to the path, datatype and `sh:maxCount` of the last property of that name, `None` when absent, and to an `RDFProperty` of that name |
| ShapeScanner.ScanShapes | shacl_class_generator.py:86 | the NodeShape loop succeeds exactly when every NodeShape scans, with one class per NodeShape, in order; when it fails, its error is that of the first NodeShape that fails |
| ShapeScanner.ScanAll | shacl_class_generator.py:86-110 | the script fails exactly when some NodeShape fails to scan, with that loop's error, and otherwise `shape_by_targetClass` receives the scanned classes in NodeShape order (what that dictionary then maps is stated by `ShapeByTargetClass` and `ShapeByTargetClassKeys`) |
| ShapeScanner.ShapeByTargetClass | shacl_class_generator.py:110 | each NodeShape's class is filed under its target class, and the last NodeShape with a given target class wins |
| ShapeScanner.ShapeByTargetClassKeys | shacl_class_generator.py:110 | the keys of `shape_by_targetClass` are exactly the NodeShapes' target classes, `None` included |
| Binder.Render | shacl_class_generator.py:66 | `str` of a list is bracketed: `[]` when empty, `[` + `repr(x)` + `]` for one element |
| Binder.RenderSnoc | shacl_class_generator.py:66 | one more element inserts `", "` and its `repr` before the closing bracket, which with the two cases above fixes `str` of every list |
| Binder.Root | shacl_class_generator.py:58 | the root is `None` when the target class is `None` or no `rdf:type` triple names it, and otherwise is the subject of the first such triple |
| Binder.ValuesMember | shacl_class_generator.py:62-64 | a value is listed exactly when some triple of the root along the path converts to it |
| Binder.ValuesAppend | shacl_class_generator.py:62-64 | the values follow the graph's triple order |
| Binder.FreshRead | shacl_class_generator.py:57-59 | reading `_target_class` or `_paths` on a fresh instance is an `AttributeError` exactly when a property of that name hides the class attribute |
| Binder.DataTypeOf | shacl_class_generator.py:61 | `self._data_types[name]` is a `KeyError` exactly when the class dictionary is reachable and lacks the name. When a property or an instance attribute named `_data_types` hides it, the read is an `AttributeError` or a `TypeError`. Otherwise it gives the name's entry |
| Binder.Bound | shacl_class_generator.py:61-66 | the text for one entry fails exactly as the datatype read does, and otherwise is `str` of the converted values |
| Binder.BindFrom | shacl_class_generator.py:60-66 | the loop succeeds exactly when every name has a datatype entry, no assignment reaches `__class__`, `__dict__` or `__weakref__`, `_data_types` is not hidden at the start, and no entry but the last writes the `_data_types` slot. A `KeyError` names an entry with no datatype, and a `setattr` error an entry whose assignment reaches a built-in attribute |
| Binder.Init | shacl_class_generator.py:56-66 | binding succeeds exactly when no property hides `_target_class` or `_paths` and the loop binds from a fresh instance; the only errors are `KeyError`, `TypeError` (subscripting, or assigning to `__class__` or `__dict__`) and `AttributeError` (a hidden or unset attribute, or assigning to `__weakref__`) |
| Binder.BindFromSets | shacl_class_generator.py:60-66 | each entry leaves its text in its slot unless a later entry writes the same slot |
| Binder.BindFromKeeps | shacl_class_generator.py:60-66 | a slot no entry writes keeps its value |
| Binder.InitReadsBack | shacl_class_generator.py:56-66 | without descriptor shadowing, reading an attribute after binding gives `str` of the converted objects of the root along its path |
| Binder.SlotIsDataTypes | shacl_class_generator.py:44-45 | with no property named `_data_types`, assigning the property `n` writes the `_data_types` slot exactly when `n` is `data_types` |
| Binder.FreshBinds | shacl_class_generator.py:60-66 | for a class whose names all have datatype entries and descriptors, binding from a fresh instance succeeds exactly when no entry's assignment reaches `__class__`, `__dict__` or `__weakref__`, `_data_types` is no property name (if there are paths) and no entry of `_paths` but the last is `data_types` |
| Binder.ScannedClassBinds | shacl_class_generator.py:97-109 | a class built by the NodeShape loop never raises `KeyError`. It binds exactly when no property is named `_target_class`, `_paths` or `_data_types`, no entry's assignment reaches `__class__`, `__dict__` or `__weakref__`, and no entry of `_paths` but the last is `data_types` (a repeated name counts once, at its first position) |
| Binder.BuiltinSlotNames | shacl_class_generator.py:39-45 | without shadowing, a property's assignment reaches `__class__`, `__dict__` or `__weakref__` exactly when it is named `_class__`, `_dict__` or `_weakref__` |
| Binder.ClassSlotRefused | shacl_class_generator.py:44-66 | a NodeShape whose one property is named `_class__` gives a class whose `__init__` raises the `TypeError` of assigning to `__class__` |
| Binder.ScannedClassWellFormed | shacl_class_generator.py:97-101 | a scanned class meets the conditions of `InitReadsBack` when no property name is `"_"` followed by another |
| Binder.InitIgnoresMaxCounts | shacl_class_generator.py:56-66 | binding never reads `_max_counts`, so no cardinality is checked |
| Binder.MissingRootReadsEverySubject | shacl_class_generator.py:58-64 | with no subject of the target class, the root is `None` and every triple along the path contributes, whatever its subject |

## Left out

- Parsing the shapes graph and the metadata graph from files (orm_shacl/shacl_class_generator.py:22; shacl_class_generator.py:81, 113). The graph is given as a triple sequence, and the namespace bindings as a sequence of pairs.
- The script's module-level output (shacl_class_generator.py:115-121). It is printing only.
- `generate_classes_from_schemas` (orm_shacl/shacl_class_generator.py:121). The emitter is not part of this model; the model ends with the schemas handed to it.
- `orm_shacl/rdf_orm_classes.py` and `orm_shacl/rdf_orm_helpers.py` are not part of this model. `RDFProperty(...)` of the compiler is a record of its arguments, and `extract_name` is a parameter.
- `from_datatype`, `to_datatype` and `repr` are not part of this model; the first and the last are parameters.
- Binder.BindFrom: `from_datatype` and `repr` are assumed to return normally. Their code is not part of this model, so an exception either raises inside `__init__` is not modelled.
- Binder.Init: only `_target_class`, `_paths` and `_data_types` are modelled as class attributes a property can hide. A property named after another attribute `__init__` relies on (`__init__` itself, for instance) is not modelled.
- Class synthesis by `type(...)`. A class is a record of its name, target class and attribute dictionary. Of the checks `type(...)` makes, the model keeps the string name check and, in the scanner, the namespace keys it rejects.
- ShapeCompiler.ParseClass: the `TypeError` `type(...)` raises for a property named `__qualname__`, `__classcell__` or `__slots__` is not modelled for the compiler. Whether it is raised depends on `RDFProperty` and `AbstractRDFMetadata` of `orm_shacl/rdf_orm_classes.py`, which are not part of this model (orm_shacl/shacl_class_generator.py:109). The scanner, whose `RDFProperty` is defined in its own file (shacl_class_generator.py:30-48), models it.
- ShapeCompiler.ParseClassRegisters: the registered class record keeps `sh:targetClass` as its target class even when a property named `_target_class` replaces that entry of the class dictionary (orm_shacl/shacl_class_generator.py:109). The property is still among the record's attributes, under that name, but the record does not say that it wins.
- `rdf_path`, `rdf_datatype` and `rdf_maxCount` (shacl_class_generator.py:69-79). They read base-class attributes that are always `None`.
- `nested_property` (orm_shacl/shacl_class_generator.py:37-46). Nothing calls it.
- The unused `sh:minCount` read (shacl_class_generator.py:100) and `property_by_path` (shacl_class_generator.py:84). Neither changes anything.
- Descriptors.GetAttr: an attribute missing from the instance is an `AttributeError`; the fallback to the class dictionary is left to `Binder`, which models it for `_target_class`, `_paths` and `_data_types`. Reading the built-in `__class__`, `__dict__` or `__weakref__` gives the class, the dictionary or `None` in Python, while the model, which holds only the instance's own values, reports it as missing. In the compiler, a property name that shadows a base-class attribute is not modelled, a case the source marks as unvalidated (orm_shacl/shacl_class_generator.py:81).
- Descriptors.Get: `__get__` is `getattr(instance, "_" + name)` and shares the gaps of `Descriptors.GetAttr`. A slot missing from the instance but present in the class dictionary is read from the class in Python (a property `paths` on an instance without `_paths` reads the class's `_paths`); the model reports it as missing. A built-in slot is reported as missing too.
- PyStr.Upper: only ASCII letters are upper-cased. Python's full Unicode case mapping is not modelled.
- Rdf.Value: literal values are strings or integers. Other Python value types are not modelled.
- The graph is a sequence, so duplicate triples are possible, while rdflib's graph is a set.
- Behaviour the code does not have is not modelled. This includes:
  - longest-prefix namespace matching;
  - ordering shapes by dependency or reporting cycles;
  - rejecting duplicate schema names;
  - errors for an ambiguous or missing root;
  - enforcing `sh:maxCount`.

=== FILE: binder.dfy ===
/** `AbstractRDFMetadata.__init__` of the top-level `shacl_class_generator.py`:
    a fresh instance of a scanned class reads its values out of a metadata
    graph. The root subject is the first one typed with the class's target
    class; for each entry of `_paths`, in order, the objects of the root
    along that path are converted with `from_datatype`, and `str` of the
    resulting list is assigned to the attribute of that name.

    `from_datatype` and `repr` belong to code outside this model and are
    parameters. */
module Binder {
  import opened Outcomes
  import opened Rdf
  import opened PyDict
  import Descriptors
  import opened ShapeScanner

  /** `", ".join(parts)`. */
  function Join(parts: seq<string>): string {
    if parts == [] then ""
    else if |parts| == 1 then parts[0]
    else Join(parts[..|parts| - 1]) + ", " + parts[|parts| - 1]
  }

  /** `str(xs)` for a list: the `repr` of each element, comma separated,
      between square brackets. */
  function Render<V>(xs: seq<V>, repr: V -> string): (r: string)
    ensures |r| >= 2 && r[0] == '[' && r[|r| - 1] == ']'
    ensures xs == [] ==> r == "[]"
    ensures |xs| == 1 ==> r == "[" + repr(xs[0]) + "]"
  {
    "[" + Join(seq(|xs|, i requires 0 <= i < |xs| => repr(xs[i]))) + "]"
  }

  /** One more element adds `", "` and its `repr` before the closing
      bracket; with the empty and one-element cases this fixes `str` of
      every list. */
  lemma RenderSnoc<V>(xs: seq<V>, x: V, repr: V -> string)
    requires xs != []
    ensures Render(xs + [x], repr) == Render(xs, repr)[..|Render(xs, repr)| - 1] + ", " + repr(x) + "]"
  {
    var parts := seq(|xs + [x]|, i requires 0 <= i < |xs + [x]| => repr((xs + [x])[i]));
    assert parts[..|parts| - 1] == seq(|xs|, i requires 0 <= i < |xs| => repr(xs[i]));
    var r := Render(xs, repr);
    assert r[..|r| - 1] == "[" + Join(parts[..|parts| - 1]);
  }

  /** `metadata_graph.value(predicate=RDF.type, object=target_class)`: the
      subject of the first `rdf:type` triple naming the target class, and
      `None` when there is none or the target class is `None`. */
  function Root(g: Graph, cls: LegacyClass): (r: Option<Term>)
    ensures cls.targetClass.None? ==> r.None?
    ensures cls.targetClass.Some? ==>
      (r.None? <==> forall i :: 0 <= i < |g| ==> !(g[i].p == RDF_TYPE && g[i].o == cls.targetClass.value))
    ensures r.Some? ==> cls.targetClass.Some? && exists i :: FirstTyped(g, RDF_TYPE, cls.targetClass.value, i) && g[i].s == r.value
  {
    ValueSubject(g, RDF_TYPE, cls.targetClass)
  }

  /** The list comprehension: one converted value per object of `root`
      along `path`, in graph order. A `None` root or path matches anything. */
  function Values<V>(g: Graph, root: Option<Term>, path: Option<Term>, dataType: Option<Term>,
                     fromDatatype: (Term, Option<Term>) -> V): (r: seq<V>)
    ensures |r| == |Objects(g, root, path)|
    ensures forall i :: 0 <= i < |r| ==> r[i] == fromDatatype(Objects(g, root, path)[i], dataType)
  {
    var objs := Objects(g, root, path);
    seq(|objs|, i requires 0 <= i < |objs| => fromDatatype(objs[i], dataType))
  }

  /** The values in terms of the graph's triples: every triple of the root
      along the path contributes its converted object, and nothing else is
      listed. */
  lemma ValuesMember<V>(g: Graph, root: Option<Term>, path: Option<Term>, dataType: Option<Term>,
                        fromDatatype: (Term, Option<Term>) -> V, x: V)
    ensures x in Values(g, root, path, dataType, fromDatatype) <==>
      exists j :: 0 <= j < |g| && Fits(g[j].s, root) && Fits(g[j].p, path) && x == fromDatatype(g[j].o, dataType)
  {
    var objs := Objects(g, root, path);
    var vs := Values(g, root, path, dataType, fromDatatype);
    if x in vs {
      var k :| 0 <= k < |vs| && vs[k] == x;
      ObjectsMember(g, root, path, objs[k]);
    }
    if exists j :: 0 <= j < |g| && Fits(g[j].s, root) && Fits(g[j].p, path) && x == fromDatatype(g[j].o, dataType) {
      var j :| 0 <= j < |g| && Fits(g[j].s, root) && Fits(g[j].p, path) && x == fromDatatype(g[j].o, dataType);
      ObjectsMember(g, root, path, g[j].o);
      var k :| 0 <= k < |objs| && objs[k] == g[j].o;
      assert vs[k] == x;
    }
  }

  /** The class attributes of `AbstractRDFMetadata` that `__init__` reads. */
  const TARGET_CLASS_ATTR := "_target_class"
  const PATHS_ATTR := "_paths"
  const DATA_TYPES_ATTR := "_data_types"

  /** Reading a class attribute on a fresh instance. A descriptor of the
      same name hides the class attribute, and the slot it leads to has
      never been written, so the read is an `AttributeError`; otherwise the
      class attribute is reached. */
  function FreshRead(names: seq<string>, attr: string): (r: Result<()>)
    ensures r.Err? <==> attr in names
    ensures r.Err? ==> r.error == AttributeMissing(Descriptors.Slot(names, attr))
  {
    if attr in names then Err(Descriptors.GetAttr<string>(names, map[], attr).error) else Ok(())
  }

  /** `self._data_types` no longer reaches the class's dictionary: a
      descriptor or an instance attribute of that name hides it. */
  predicate DataTypesHidden(cls: LegacyClass, inst: Descriptors.Instance<string>) {
    DATA_TYPES_ATTR in Keys(cls.attributes) || DATA_TYPES_ATTR in inst
  }

  /** `self._data_types[property_name]` during binding. Through the class's
      dictionary a missing name is a `KeyError`. When the dictionary is
      hidden, the read fails with an `AttributeError` or yields text or
      `None`, and subscripting either is a `TypeError`. */
  function DataTypeOf(cls: LegacyClass, inst: Descriptors.Instance<string>, name: string): (r: Result<Option<Term>>)
    ensures r.Err? <==> DataTypesHidden(cls, inst) || name !in Keys(cls.dataTypes)
    ensures r.Err? ==> (r.error == KeyMissing <==> !DataTypesHidden(cls, inst))
    ensures r.Err? ==> r.error == KeyMissing || r.error == NotSubscriptable || r.error.AttributeMissing?
    ensures r.Ok? ==> Get(cls.dataTypes, name) == Some(r.value)
  {
    if DataTypesHidden(cls, inst) then
      var hidden :- Descriptors.GetAttr(Keys(cls.attributes), inst, DATA_TYPES_ATTR);
      Err(NotSubscriptable)
    else Lookup(cls.dataTypes, name)
  }

  /** The text one `_paths` entry assigns: `str` of the converted values,
      once `self._data_types[property_name]` has given the datatype. */
  function Bound<V>(g: Graph, cls: LegacyClass, inst: Descriptors.Instance<string>, root: Option<Term>,
                    fromDatatype: (Term, Option<Term>) -> V, repr: V -> string,
                    name: string, path: Option<Term>): (r: Result<string>)
    ensures r.Err? <==> DataTypesHidden(cls, inst) || name !in Keys(cls.dataTypes)
    ensures r.Err? ==> (r.error == KeyMissing <==> !DataTypesHidden(cls, inst))
    ensures r.Err? ==> r.error == KeyMissing || r.error == NotSubscriptable || r.error.AttributeMissing?
    ensures r.Ok? ==> r.value == Render(Values(g, root, path, Get(cls.dataTypes, name).value, fromDatatype), repr)
  {
    var dataType :- DataTypeOf(cls, inst, name);
    Ok(Render(Values(g, root, path, dataType, fromDatatype), repr))
  }

  /** The instance slot an entry writes, as seen through the descriptors. */
  function SlotOf(cls: LegacyClass, name: string): string {
    Descriptors.Slot(Keys(cls.attributes), name)
  }

  /** Binding `entries` from `inst` raises nothing: every name has a
      datatype entry, no assignment reaches a built-in attribute, and
      `self._data_types` reaches the class's dictionary at every step,
      because it is not hidden at the start and no entry but the last
      writes the `_data_types` slot. */
  predicate Binds(cls: LegacyClass, inst: Descriptors.Instance<string>, entries: Dict<string, Option<Term>>) {
    && (forall i :: 0 <= i < |entries| ==>
          entries[i].0 in Keys(cls.dataTypes) && !Descriptors.Builtin(SlotOf(cls, entries[i].0)))
    && (entries != [] ==> !DataTypesHidden(cls, inst))
    && (forall j :: 0 <= j < |entries| - 1 ==> SlotOf(cls, entries[j].0) != DATA_TYPES_ATTR)
  }

  /** Unfolding `Binds` by the first entry, whose assignment writes its
      slot. */
  lemma BindsStep(cls: LegacyClass, inst: Descriptors.Instance<string>, entries: Dict<string, Option<Term>>, v: Option<string>)
    requires entries != []
    ensures Binds(cls, inst, entries) <==>
              && entries[0].0 in Keys(cls.dataTypes) && !Descriptors.Builtin(SlotOf(cls, entries[0].0))
              && !DataTypesHidden(cls, inst)
              && Binds(cls, inst[SlotOf(cls, entries[0].0) := v], entries[1..])
  {
    assert forall j :: 0 <= j < |entries| - 1 ==> entries[1..][j] == entries[j + 1];
  }

  /** The exceptions binding can raise: those of the datatype read and
      those of `setattr` on a built-in attribute. */
  predicate BindError(e: Error) {
    e == KeyMissing || e == NotSubscriptable || e.AttributeMissing? || e.WrongAttributeType? || e.ReadOnlyAttribute?
  }

  /** The loop over `_paths` entries, from instance `inst`. */
  function BindFrom<V>(g: Graph, cls: LegacyClass, root: Option<Term>, fromDatatype: (Term, Option<Term>) -> V,
                       repr: V -> string, entries: Dict<string, Option<Term>>,
                       inst: Descriptors.Instance<string>): (r: Result<Descriptors.Instance<string>>)
    ensures r.Ok? <==> Binds(cls, inst, entries)
    ensures r.Err? ==> BindError(r.error)
    ensures r.Err? && r.error == KeyMissing ==> exists i :: 0 <= i < |entries| && entries[i].0 !in Keys(cls.dataTypes)
    ensures r.Err? && (r.error.WrongAttributeType? || r.error.ReadOnlyAttribute?) ==>
              exists i :: 0 <= i < |entries| && Descriptors.Builtin(SlotOf(cls, entries[i].0))
    decreases |entries|
  {
    if entries == [] then Ok(inst)
    else
      var text :- Bound(g, cls, inst, root, fromDatatype, repr, entries[0].0, entries[0].1);
      var next :- Descriptors.SetAttr(Keys(cls.attributes), inst, entries[0].0, Some(text));
      BindsStep(cls, inst, entries, Some(text));
      BindFrom(g, cls, root, fromDatatype, repr, entries[1..], next)
  }

  /** `cls(metadata_graph)`: `self._target_class` is read, the root found,
      `self._paths` read, and a fresh instance bound from the graph. */
  function Init<V>(g: Graph, cls: LegacyClass, fromDatatype: (Term, Option<Term>) -> V,
                   repr: V -> string): (r: Result<Descriptors.Instance<string>>)
    ensures r.Ok? <==> TARGET_CLASS_ATTR !in Keys(cls.attributes) && PATHS_ATTR !in Keys(cls.attributes)
                       && Binds(cls, map[], cls.paths)
    ensures r.Err? ==> BindError(r.error)
    ensures r.Err? && r.error == KeyMissing ==> exists i :: 0 <= i < |cls.paths| && cls.paths[i].0 !in Keys(cls.dataTypes)
  {
    var names := Keys(cls.attributes);
    var targetRead :- FreshRead(names, TARGET_CLASS_ATTR);
    var root := Root(g, cls);
    var pathsRead :- FreshRead(names, PATHS_ATTR);
    BindFrom(g, cls, root, fromDatatype, repr, cls.paths, map[])
  }

  /** Each entry leaves in its slot the text it computed, unless a later
      entry writes the same slot. */
  lemma {:induction false} BindFromSets<V>(g: Graph, cls: LegacyClass, root: Option<Term>,
                                           fromDatatype: (Term, Option<Term>) -> V, repr: V -> string,
                                           entries: Dict<string, Option<Term>>, inst: Descriptors.Instance<string>, i: int)
    requires BindFrom(g, cls, root, fromDatatype, repr, entries, inst).Ok?
    requires 0 <= i < |entries|
    requires forall j :: i < j < |entries| ==> SlotOf(cls, entries[j].0) != SlotOf(cls, entries[i].0)
    ensures entries[i].0 in Keys(cls.dataTypes)
    ensures var r := BindFrom(g, cls, root, fromDatatype, repr, entries, inst).value;
            SlotOf(cls, entries[i].0) in r
            && r[SlotOf(cls, entries[i].0)]
               == Some(Render(Values(g, root, entries[i].1, Get(cls.dataTypes, entries[i].0).value, fromDatatype), repr))
    decreases |entries|
  {
    if i == 0 {
      BindFromSetsFirst(g, cls, root, fromDatatype, repr, entries, inst);
    } else {
      var text := Bound(g, cls, inst, root, fromDatatype, repr, entries[0].0, entries[0].1).value;
      var next := Descriptors.SetAttr(Keys(cls.attributes), inst, entries[0].0, Some(text)).value;
      assert BindFrom(g, cls, root, fromDatatype, repr, entries, inst) == BindFrom(g, cls, root, fromDatatype, repr, entries[1..], next);
      BindFromSets(g, cls, root, fromDatatype, repr, entries[1..], next, i - 1);
    }
  }

  /** The first entry's text stays in its slot when no later entry writes
      that slot. */
  lemma BindFromSetsFirst<V>(g: Graph, cls: LegacyClass, root: Option<Term>,
                             fromDatatype: (Term, Option<Term>) -> V, repr: V -> string,
                             entries: Dict<string, Option<Term>>, inst: Descriptors.Instance<string>)
    requires BindFrom(g, cls, root, fromDatatype, repr, entries, inst).Ok?
    requires entries != []
    requires forall j :: 0 < j < |entries| ==> SlotOf(cls, entries[j].0) != SlotOf(cls, entries[0].0)
    ensures entries[0].0 in Keys(cls.dataTypes)
    ensures var r := BindFrom(g, cls, root, fromDatatype, repr, entries, inst).value;
            SlotOf(cls, entries[0].0) in r
            && r[SlotOf(cls, entries[0].0)]
               == Some(Render(Values(g, root, entries[0].1, Get(cls.dataTypes, entries[0].0).value, fromDatatype), repr))
  {
    var text := Bound(g, cls, inst, root, fromDatatype, repr, entries[0].0, entries[0].1).value;
    var next := Descriptors.SetAttr(Keys(cls.attributes), inst, entries[0].0, Some(text)).value;
    assert BindFrom(g, cls, root, fromDatatype, repr, entries, inst) == BindFrom(g, cls, root, fromDatatype, repr, entries[1..], next);
    BindFromKeeps(g, cls, root, fromDatatype, repr, entries[1..], next, SlotOf(cls, entries[0].0));
  }

  /** A slot no entry writes keeps its value. */
  lemma {:induction false} BindFromKeeps<V>(g: Graph, cls: LegacyClass, root: Option<Term>,
                                            fromDatatype: (Term, Option<Term>) -> V, repr: V -> string,
                                            entries: Dict<string, Option<Term>>, inst: Descriptors.Instance<string>, slot: string)
    requires BindFrom(g, cls, root, fromDatatype, repr, entries, inst).Ok?
    requires forall j :: 0 <= j < |entries| ==> SlotOf(cls, entries[j].0) != slot
    ensures var r := BindFrom(g, cls, root, fromDatatype, repr, entries, inst).value;
            (slot in r <==> slot in inst) && (slot in inst ==> r[slot] == inst[slot])
    decreases |entries|
  {
    if entries != [] {
      var text := Bound(g, cls, inst, root, fromDatatype, repr, entries[0].0, entries[0].1).value;
      var next := Descriptors.SetAttr(Keys(cls.attributes), inst, entries[0].0, Some(text)).value;
      assert SlotOf(cls, entries[0].0) != slot;
      BindFromKeeps(g, cls, root, fromDatatype, repr, entries[1..], next, slot);
    }
  }

  /** With no descriptor shadowing another and every path named by a
      descriptor, reading an attribute back after `__init__` gives `str` of
      the converted objects of the root along that attribute's path. */
  lemma InitReadsBack<V>(g: Graph, cls: LegacyClass, fromDatatype: (Term, Option<Term>) -> V,
                         repr: V -> string, i: int)
    requires Init(g, cls, fromDatatype, repr).Ok?
    requires Descriptors.NoShadowing(Keys(cls.attributes)) && Wf(cls.paths)
    requires forall j :: 0 <= j < |cls.paths| ==> cls.paths[j].0 in Keys(cls.attributes)
    requires 0 <= i < |cls.paths|
    ensures cls.paths[i].0 in Keys(cls.dataTypes)
    ensures Descriptors.GetAttr(Keys(cls.attributes), Init(g, cls, fromDatatype, repr).value, cls.paths[i].0)
            == Ok(Some(Render(Values(g, Root(g, cls), cls.paths[i].1, Get(cls.dataTypes, cls.paths[i].0).value, fromDatatype), repr)))
  {
    var names := Keys(cls.attributes);
    var name := cls.paths[i].0;
    forall j | i < j < |cls.paths| ensures SlotOf(cls, cls.paths[j].0) != SlotOf(cls, name) {
      Descriptors.SlotOfDescriptor(names, cls.paths[j].0);
      Descriptors.SlotOfDescriptor(names, name);
      assert cls.paths[j].0 != name;
      assert ("_" + cls.paths[j].0)[1..] == cls.paths[j].0;
      assert ("_" + name)[1..] == name;
    }
    BindFromSets(g, cls, Root(g, cls), fromDatatype, repr, cls.paths, map[], i);
  }

  /** With no descriptor named `_data_types`, the only name whose
      assignment writes the `_data_types` slot is `data_types`. */
  lemma SlotIsDataTypes(names: seq<string>, n: string)
    requires n in names && DATA_TYPES_ATTR !in names
    ensures Descriptors.Slot(names, n) == DATA_TYPES_ATTR <==> n == "data_types"
  {
    var k := Descriptors.SlotShape(names, n);
    if n == "data_types" {
      assert "_" + n == DATA_TYPES_ATTR;
      assert Descriptors.Slot(names, n) == Descriptors.Slot(names, "_" + n);
    }
    if Descriptors.Slot(names, n) == DATA_TYPES_ATTR {
      assert (Descriptors.Underscores(k) + n)[1] == DATA_TYPES_ATTR[1] == 'd';
      assert Descriptors.Underscores(k) == "_";
      assert n == DATA_TYPES_ATTR[1..];
      assert DATA_TYPES_ATTR[1..] == "data_types";
    }
  }

  /** For a class whose paths all have datatype entries and are all named
      by descriptors, binding from a fresh instance raises nothing exactly
      when no assignment reaches a built-in attribute, no descriptor is
      named `_data_types` and `data_types` names at most the last path
      entry. */
  lemma FreshBinds(cls: LegacyClass)
    requires forall i :: 0 <= i < |cls.paths| ==> cls.paths[i].0 in Keys(cls.dataTypes) && cls.paths[i].0 in Keys(cls.attributes)
    ensures Binds(cls, map[], cls.paths) <==>
              && (forall j :: 0 <= j < |cls.paths| ==> !Descriptors.Builtin(SlotOf(cls, cls.paths[j].0)))
              && (cls.paths != [] ==> DATA_TYPES_ATTR !in Keys(cls.attributes))
              && (forall j :: 0 <= j < |cls.paths| - 1 ==> cls.paths[j].0 != "data_types")
  {
    var names := Keys(cls.attributes);
    if DATA_TYPES_ATTR !in names {
      forall j | 0 <= j < |cls.paths| - 1 ensures SlotOf(cls, cls.paths[j].0) == DATA_TYPES_ATTR <==> cls.paths[j].0 == "data_types" {
        SlotIsDataTypes(names, cls.paths[j].0);
      }
    }
  }

  /** A class built by the NodeShape loop never raises `KeyError` when
      bound, since every path has a datatype entry (possibly `None`). It
      binds exactly when no property is named `_target_class`, `_paths` or
      `_data_types`, no assignment reaches a built-in attribute, and a
      property named `data_types` is at most the last path entry: its
      assignment writes the `_data_types` slot, which then hides the
      class's dictionary from the entries after it. */
  lemma ScannedClassBinds<V>(g: Graph, name: string, target: Option<Term>, ps: seq<ScannedProp>,
                             fromDatatype: (Term, Option<Term>) -> V, repr: V -> string)
    ensures var c := Build(name, target, ps);
            && (Init(g, c, fromDatatype, repr).Err? ==> Init(g, c, fromDatatype, repr).error != KeyMissing)
            && (Init(g, c, fromDatatype, repr).Ok? <==>
                  && (forall i :: 0 <= i < |ps| ==>
                        ps[i].name != TARGET_CLASS_ATTR && ps[i].name != PATHS_ATTR && ps[i].name != DATA_TYPES_ATTR)
                  && (forall j :: 0 <= j < |c.paths| ==> !Descriptors.Builtin(SlotOf(c, c.paths[j].0)))
                  && (forall j :: 0 <= j < |c.paths| - 1 ==> c.paths[j].0 != "data_types"))
  {
    var c := Build(name, target, ps);
    BuildKeys(name, target, ps, TARGET_CLASS_ATTR);
    BuildKeys(name, target, ps, PATHS_ATTR);
    BuildKeys(name, target, ps, DATA_TYPES_ATTR);
    assert forall i :: 0 <= i < |c.paths| ==> c.paths[i].0 == Keys(c.paths)[i];
    FreshBinds(c);
    if DATA_TYPES_ATTR in Keys(c.attributes) {
      assert c.paths != [];
    }
  }

  /** Without shadowing, the assignment of a descriptor reaches a built-in
      attribute exactly when the descriptor is named `_class__`, `_dict__`
      or `_weakref__`. */
  lemma BuiltinSlotNames(names: seq<string>, n: string)
    requires Descriptors.NoShadowing(names) && n in names
    ensures Descriptors.Builtin(Descriptors.Slot(names, n)) <==> n == "_class__" || n == "_dict__" || n == "_weakref__"
  {
    Descriptors.SlotOfDescriptor(names, n);
    var slot := "_" + n;
    assert slot[1..] == n;
    assert "__class__"[1..] == "_class__" && "__dict__"[1..] == "_dict__" && "__weakref__"[1..] == "_weakref__";
  }

  /** A NodeShape whose only property is named `_class__` builds a class
      whose `__init__` raises `TypeError`: the value is assigned through the
      descriptor to `__class__`. */
  lemma ClassSlotRefused<V>(g: Graph, fromDatatype: (Term, Option<Term>) -> V, repr: V -> string)
    ensures Init(g, Build("C", None, [ScannedProp("_class__", None, None, None)]), fromDatatype, repr)
            == Err(WrongAttributeType("__class__"))
  {
    var ps := [ScannedProp("_class__", None, None, None)];
    var c := Build("C", None, ps);
    BuildKeys("C", None, ps, "_class__");
    BuildKeys("C", None, ps, "__class__");
    assert Keys(c.attributes) == ["_class__"] by {
      assert c.attributes == [("_class__", Descriptors.RdfProperty("_class__"))];
    }
    assert c.paths == [("_class__", None)];
    assert Descriptors.Slot(["_class__"], "_class__") == "__class__" by {
      assert "_" + "_class__" == "__class__";
      assert "__class__" != "_class__";
    }
    var text := Bound(g, c, map[], Root(g, c), fromDatatype, repr, "_class__", None);
    assert text.Ok?;
  }

  /** A scanned class satisfies the side conditions of `InitReadsBack`
      whenever no property name is `"_"` followed by another. */
  lemma ScannedClassWellFormed(name: string, target: Option<Term>, ps: seq<ScannedProp>)
    requires forall i, j :: 0 <= i < |ps| && 0 <= j < |ps| ==> "_" + ps[i].name != ps[j].name
    ensures var c := Build(name, target, ps);
            && Descriptors.NoShadowing(Keys(c.attributes)) && Wf(c.paths)
            && forall j :: 0 <= j < |c.paths| ==> c.paths[j].0 in Keys(c.attributes)
  {
    var c := Build(name, target, ps);
    BuildKeys(name, target, ps, "");
    forall i | 0 <= i < |Keys(c.attributes)| ensures "_" + Keys(c.attributes)[i] !in Keys(c.attributes) {
      var k := Keys(c.attributes)[i];
      BuildKeys(name, target, ps, k);
      var a :| 0 <= a < |ps| && ps[a].name == k;
      BuildKeys(name, target, ps, "_" + k);
    }
  }

  /** `__init__` never reads `_max_counts`. */
  lemma {:induction false} BindFromIgnoresMaxCounts<V>(g: Graph, cls: LegacyClass, m: Dict<string, Option<Term>>,
                                                       root: Option<Term>, fromDatatype: (Term, Option<Term>) -> V,
                                                       repr: V -> string, entries: Dict<string, Option<Term>>,
                                                       inst: Descriptors.Instance<string>)
    ensures BindFrom(g, cls.(maxCounts := m), root, fromDatatype, repr, entries, inst)
            == BindFrom(g, cls, root, fromDatatype, repr, entries, inst)
    decreases |entries|
  {
    if entries != [] {
      var text := Bound(g, cls, inst, root, fromDatatype, repr, entries[0].0, entries[0].1);
      if text.Ok? {
        var next := Descriptors.SetAttr(Keys(cls.attributes), inst, entries[0].0, Some(text.value));
        if next.Ok? {
          BindFromIgnoresMaxCounts(g, cls, m, root, fromDatatype, repr, entries[1..], next.value);
        }
      }
    }
  }

  lemma InitIgnoresMaxCounts<V>(g: Graph, cls: LegacyClass, m: Dict<string, Option<Term>>,
                                fromDatatype: (Term, Option<Term>) -> V, repr: V -> string)
    ensures Init(g, cls.(maxCounts := m), fromDatatype, repr) == Init(g, cls, fromDatatype, repr)
  {
    BindFromIgnoresMaxCounts(g, cls, m, Root(g, cls), fromDatatype, repr, cls.paths, map[]);
  }

  /** The values follow the graph's triple order: appending triples appends
      their values. */
  lemma ValuesAppend<V>(g1: Graph, g2: Graph, root: Option<Term>, path: Option<Term>, dataType: Option<Term>,
                        fromDatatype: (Term, Option<Term>) -> V)
    ensures Values(g1 + g2, root, path, dataType, fromDatatype)
            == Values(g1, root, path, dataType, fromDatatype) + Values(g2, root, path, dataType, fromDatatype)
  {
    ObjectsAppend(g1, g2, root, path);
  }

  /** When no subject carries the target class, the root is `None`, and a
      triple along the path contributes its object whatever its subject. */
  lemma MissingRootReadsEverySubject<V>(g: Graph, cls: LegacyClass, path: Option<Term>, dataType: Option<Term>,
                                        fromDatatype: (Term, Option<Term>) -> V, i: int)
    requires forall j :: 0 <= j < |g| ==> !(g[j].p == RDF_TYPE && Some(g[j].o) == cls.targetClass)
    requires 0 <= i < |g| && Fits(g[i].p, path)
    ensures Root(g, cls) == None
    ensures fromDatatype(g[i].o, dataType) in Values(g, Root(g, cls), path, dataType, fromDatatype)
  {
    ObjectsMember(g, None, path, g[i].o);
    var objs := Objects(g, None, path);
    var k :| 0 <= k < |objs| && objs[k] == g[i].o;
    assert Values(g, None, path, dataType, fromDatatype)[k] == fromDatatype(g[i].o, dataType);
  }
}

=== FILE: descriptors.dfy ===
/** `RDFProperty` and `RDFNestedProperty` of the top-level
    `shacl_class_generator.py`: data descriptors that keep a property's value
    in the instance attribute `"_" + property_name`.

    Attribute access is modelled as Python performs it: an attribute whose
    name is one of the class's descriptors goes through that descriptor,
    which in turn reads or writes `"_" + name` by `getattr`/`setattr`, and
    that name may itself be a descriptor. Any other attribute lives in the
    instance's own dictionary. */
module Descriptors {
  import opened Outcomes

  datatype Descriptor = RdfProperty(propertyName: string) | RdfNestedProperty(propertyName: string) {
    /** `self.private_property`. */
    function PrivateProperty(): string {
      "_" + propertyName
    }
  }

  /** The instance's own attribute dictionary; `None` stands for a value of
      `None`. */
  type Instance<V> = map<string, Option<V>>

  /** The length of the longest descriptor name. */
  function MaxLen(names: seq<string>): (r: nat)
    ensures forall i :: 0 <= i < |names| ==> |names[i]| <= r
  {
    if names == [] then 0
    else
      var m := MaxLen(names[1..]);
      assert forall i :: 1 <= i < |names| ==> names[i] == names[1..][i - 1];
      if |names[0]| > m then |names[0]| else m
  }

  /** The instance attribute an access to `attr` finally reaches: every
      descriptor on the way redirects to `"_"` followed by its own name. */
  function Slot(names: seq<string>, attr: string): (r: string)
    ensures r !in names
    decreases MaxLen(names) - |attr|
  {
    if attr in names then Slot(names, "_" + attr) else attr
  }

  /** The attributes every instance inherits from `object` and its class
      that `setattr` will not give a text or `None` value: `__class__` and
      `__dict__` need a class and a dictionary, and `__weakref__` cannot be
      assigned at all. */
  predicate Builtin(attr: string) {
    attr == "__class__" || attr == "__dict__" || attr == "__weakref__"
  }

  /** The exception `setattr` raises on a built-in attribute. */
  function BuiltinError(attr: string): Error {
    if attr == "__weakref__" then ReadOnlyAttribute(attr) else WrongAttributeType(attr)
  }

  /** `setattr(instance, attr, v)`: through any chain of descriptors, the
      assignment reaches exactly one attribute. A built-in attribute
      refuses the value; any other is written in the instance's
      dictionary. */
  function SetAttr<V>(names: seq<string>, inst: Instance<V>, attr: string, v: Option<V>): (r: Result<Instance<V>>)
    ensures r.Err? <==> Builtin(Slot(names, attr))
    ensures r.Err? ==> r.error == BuiltinError(Slot(names, attr))
    ensures r.Ok? ==> r.value == inst[Slot(names, attr) := v]
    decreases MaxLen(names) - |attr|
  {
    if attr in names then SetAttr(names, inst, "_" + attr, v)
    else if Builtin(attr) then Err(BuiltinError(attr))
    else Ok(inst[attr := v])
  }

  /** `getattr(instance, attr)`: the same slot is read, and a slot never
      written is an `AttributeError`. */
  function GetAttr<V>(names: seq<string>, inst: Instance<V>, attr: string): (r: Result<Option<V>>)
    ensures r == if Slot(names, attr) in inst then Ok(inst[Slot(names, attr)]) else Err(AttributeMissing(Slot(names, attr)))
    decreases MaxLen(names) - |attr|
  {
    if attr in names then GetAttr(names, inst, "_" + attr)
    else if attr in inst then Ok(inst[attr])
    else Err(AttributeMissing(attr))
  }

  /** `"_"` repeated `k` times. */
  function Underscores(k: nat): (r: string)
    ensures |r| == k && forall i :: 0 <= i < k ==> r[i] == '_'
  {
    if k == 0 then "" else Underscores(k - 1) + "_"
  }

  /** The slot an access reaches is the attribute's name behind one
      underscore per descriptor passed, and at least one when the attribute
      is a descriptor. */
  lemma {:induction false} SlotShape(names: seq<string>, attr: string) returns (k: nat)
    ensures Slot(names, attr) == Underscores(k) + attr
    ensures attr in names <==> k > 0
    decreases MaxLen(names) - |attr|
  {
    if attr in names {
      var k' := SlotShape(names, "_" + attr);
      k := k' + 1;
      assert Underscores(k) + attr == Underscores(k') + ("_" + attr);
    } else {
      k := 0;
    }
  }

  /** No descriptor name is `"_"` followed by another descriptor name. */
  predicate NoShadowing(names: seq<string>) {
    forall i :: 0 <= i < |names| ==> "_" + names[i] !in names
  }

  /** Without shadowing, a descriptor's value lives in `"_" + name`. */
  lemma SlotOfDescriptor(names: seq<string>, name: string)
    requires NoShadowing(names) && name in names
    ensures Slot(names, name) == "_" + name
  {
  }

  /** `descriptor.__get__(instance, owner)`. */
  function Get<V>(names: seq<string>, inst: Instance<V>, d: Descriptor): (r: Result<Option<V>>)
    ensures r.Ok? <==> Slot(names, d.PrivateProperty()) in inst
    ensures r.Ok? ==> r.value == inst[Slot(names, d.PrivateProperty())]
  {
    GetAttr(names, inst, d.PrivateProperty())
  }

  /** `descriptor.__set__(instance, value)`. */
  function Set<V>(names: seq<string>, inst: Instance<V>, d: Descriptor, v: V): (r: Result<Instance<V>>)
    ensures r.Err? <==> Builtin(Slot(names, d.PrivateProperty()))
    ensures r.Err? ==> r.error == BuiltinError(Slot(names, d.PrivateProperty()))
    ensures r.Ok? ==> Slot(names, d.PrivateProperty()) in r.value && r.value[Slot(names, d.PrivateProperty())] == Some(v)
    ensures r.Ok? ==> forall a :: a in inst && a != Slot(names, d.PrivateProperty()) ==> a in r.value && r.value[a] == inst[a]
    ensures r.Ok? ==> forall a :: a in r.value ==> a in inst || a == Slot(names, d.PrivateProperty())
  {
    SetAttr(names, inst, d.PrivateProperty(), Some(v))
  }

  /** `descriptor.__delete__(instance)`: the slot is set to `None`. */
  function Delete<V>(names: seq<string>, inst: Instance<V>, d: Descriptor): (r: Result<Instance<V>>)
    ensures r.Err? <==> Builtin(Slot(names, d.PrivateProperty()))
    ensures r.Err? ==> r.error == BuiltinError(Slot(names, d.PrivateProperty()))
    ensures r.Ok? ==> Slot(names, d.PrivateProperty()) in r.value && r.value[Slot(names, d.PrivateProperty())] == None
    ensures r.Ok? ==> forall a :: a in inst && a != Slot(names, d.PrivateProperty()) ==> a in r.value && r.value[a] == inst[a]
    ensures r.Ok? ==> forall a :: a in r.value ==> a in inst || a == Slot(names, d.PrivateProperty())
  {
    SetAttr(names, inst, d.PrivateProperty(), None)
  }

  /** After a successful `set(v)`, `get` returns `v`; after a successful
      `delete`, `get` returns `None`. */
  lemma GetAfterSetOrDelete<V>(names: seq<string>, inst: Instance<V>, d: Descriptor, v: V)
    ensures Set(names, inst, d, v).Ok? ==> Get(names, Set(names, inst, d, v).value, d) == Ok(Some(v))
    ensures Delete(names, inst, d).Ok? ==> Get(names, Delete(names, inst, d).value, d) == Ok(None)
  {
  }

  /** When `"_" + name` is not itself a descriptor, `set` stores the value
      under `"_" + name` and changes no other instance attribute, unless
      `"_" + name` is a built-in attribute, which refuses it. */
  lemma SetStoresPrivateSlot<V>(names: seq<string>, inst: Instance<V>, d: Descriptor, v: V)
    requires d.PrivateProperty() !in names
    ensures Set(names, inst, d, v)
            == if Builtin(d.PrivateProperty()) then Err(BuiltinError(d.PrivateProperty()))
               else Ok(inst[d.PrivateProperty() := Some(v)])
  {
  }

  /** Assigning one attribute leaves every attribute that reaches another
      slot as it was. */
  lemma SetAttrLeavesOthers<V>(names: seq<string>, inst: Instance<V>, a: string, b: string, v: Option<V>)
    requires Slot(names, a) != Slot(names, b)
    ensures SetAttr(names, inst, a, v).Ok? ==> GetAttr(names, SetAttr(names, inst, a, v).value, b) == GetAttr(names, inst, b)
  {
  }

  /** `RDFNestedProperty` behaves exactly like `RDFProperty`. */
  lemma NestedLikePlain<V>(names: seq<string>, inst: Instance<V>, name: string, v: V)
    ensures Get(names, inst, RdfNestedProperty(name)) == Get(names, inst, RdfProperty(name))
    ensures Set(names, inst, RdfNestedProperty(name), v) == Set(names, inst, RdfProperty(name), v)
    ensures Delete(names, inst, RdfNestedProperty(name)) == Delete(names, inst, RdfProperty(name))
  {
  }
}

=== FILE: namespaces.dfy ===
/** `convert_namespace_identifier`: rewriting an absolute identifier as
    `PREFIX.local` using the prefix table bound in the shapes graph. */
module Namespaces {
  import opened Outcomes
  import opened PyStr

  /** One `(prefix.upper(), namespace)` pair of the table. */
  datatype Namespace = Namespace(prefix: string, base: string)

  /** The table built from the graph's `namespaces()`, in the same order,
      with every prefix upper-cased. */
  function Table(bound: seq<(string, string)>): (r: seq<Namespace>)
    ensures |r| == |bound|
    ensures forall i :: 0 <= i < |bound| ==> r[i].base == bound[i].1
    ensures forall i :: 0 <= i < |bound| ==> r[i].prefix == Upper(bound[i].0)
  {
    if bound == [] then [] else [Namespace(Upper(bound[0].0), bound[0].1)] + Table(bound[1..])
  }

  /** Entry `k` is the first entry, in table order, whose base starts the
      identifier. */
  ghost predicate FirstBase(table: seq<Namespace>, id: string, k: int) {
    && 0 <= k < |table| && StartsWith(id, table[k].base)
    && forall j :: 0 <= j < k ==> !StartsWith(id, table[j].base)
  }

  /** The loop over the table: the first namespace whose base starts the
      identifier wins, and the identifier becomes `PREFIX + "." + rest`,
      `rest` being what `split(base, 1)` leaves after the base. No match
      gives `None`. An empty base raises the `ValueError` of `split`. */
  function Convert(table: seq<Namespace>, id: string): (r: Result<Option<string>>)
    ensures r.Err? ==> r.error == SeparatorEmpty
    ensures r == Ok(None) <==> forall k :: 0 <= k < |table| ==> !StartsWith(id, table[k].base)
    ensures forall k :: FirstBase(table, id, k) ==>
      r == if table[k].base == "" then Err(SeparatorEmpty)
           else Ok(Some(table[k].prefix + "." + id[|table[k].base|..]))
  {
    if table == [] then Ok(None)
    else if StartsWith(id, table[0].base) then
      var parts :- Split1(id, table[0].base);
      SplitAtPrefix(id, table[0].base);
      Ok(Some(table[0].prefix + "." + parts[1]))
    else
      SkipFirst(table, id);
      Convert(table[1..], id)
  }

  /** When the first base does not start the identifier, matching proceeds
      in the rest of the table. */
  lemma SkipFirst(table: seq<Namespace>, id: string)
    requires table != [] && !StartsWith(id, table[0].base)
    ensures (forall k :: 0 <= k < |table| ==> !StartsWith(id, table[k].base))
            <==> (forall k :: 0 <= k < |table[1..]| ==> !StartsWith(id, table[1..][k].base))
    ensures forall k :: FirstBase(table, id, k) ==> k > 0 && FirstBase(table[1..], id, k - 1)
  {
    assert forall k :: 1 <= k < |table| ==> table[k] == table[1..][k - 1];
  }

  /** A converted identifier is the prefix of the first matching namespace,
      a dot, and the identifier with that namespace's base removed: the base
      followed by the local part gives back the identifier. */
  lemma ConvertSplitsIdentifier(table: seq<Namespace>, id: string, out: string)
    requires Convert(table, id) == Ok(Some(out))
    ensures exists k, rest ::
              && FirstBase(table, id, k)
              && table[k].base + rest == id
              && out == table[k].prefix + "." + rest
  {
    var k := FirstIndex(table, id);
    var rest := id[|table[k].base|..];
    assert table[k].base + rest == id;
  }

  /** The index of the first matching namespace, when there is one. */
  lemma {:induction false} FirstIndex(table: seq<Namespace>, id: string) returns (k: int)
    requires exists j :: 0 <= j < |table| && StartsWith(id, table[j].base)
    ensures FirstBase(table, id, k)
  {
    if StartsWith(id, table[0].base) {
      k := 0;
    } else {
      var j :| 0 <= j < |table| && StartsWith(id, table[j].base);
      assert table[1..][j - 1] == table[j];
      k := FirstIndex(table[1..], id);
      k := k + 1;
      assert forall i :: 1 <= i < |table| ==> table[i] == table[1..][i - 1];
    }
  }

  /** Upper-casing the bound prefix and keeping list order: with the table
      built from the bound pairs, the winning prefix is the upper-cased
      prefix of the first bound pair whose namespace starts the identifier. */
  lemma ConvertUsesUpperPrefix(bound: seq<(string, string)>, id: string, k: int)
    requires 0 <= k < |bound| && bound[k].1 != "" && StartsWith(id, bound[k].1)
    requires forall j :: 0 <= j < k ==> !StartsWith(id, bound[j].1)
    ensures Convert(Table(bound), id) == Ok(Some(Upper(bound[k].0) + "." + id[|bound[k].1|..]))
  {
    assert FirstBase(Table(bound), id, k);
  }

  /** With no empty base in the table, conversion never raises. */
  lemma ConvertSucceeds(table: seq<Namespace>, id: string)
    requires forall k :: 0 <= k < |table| ==> table[k].base != ""
    ensures Convert(table, id).Ok?
  {
    if exists j :: 0 <= j < |table| && StartsWith(id, table[j].base) {
      var k := FirstIndex(table, id);
    }
  }
}

=== FILE: outcomes.dfy ===
/** Option and Result values standing in for Python's `None` and for the
    exceptions the compiler and binder raise. */
module Outcomes {

  /** `None` or a present value. */
  datatype Option<+T> = None | Some(value: T)

  /** The exceptions raised along the modelled paths, one constructor per
      cause. */
  datatype Error =
    /** `ValueError` from `str.split` with an empty separator. */
    | SeparatorEmpty
    /** `AttributeError` from reading `.value` on `None` or on a term that is
        not a literal. */
    | NoValueAttribute
    /** The explicit "sh:name is required" exception. */
    | NameRequired
    /** The explicit "sh:path is required" exception. */
    | PathRequired
    /** The explicit "both sh:node and sh:datatype" exception. */
    | NodeAndDatatype
    /** The explicit "is not a known schema" exception. */
    | UnknownSchema(schemaName: string)
    /** `TypeError` from `"_" + name` when the property name is not a string. */
    | NameNotText
    /** `TypeError` from `type(None, ...)` when a NodeShape has no `sh:name`. */
    | ClassNameNotText
    /** `TypeError` from `type(...)` when the class namespace binds
        `__qualname__`, `__classcell__` or `__slots__` to a value of the
        wrong kind. */
    | ClassAttributeRejected
    /** `TypeError` from assigning text or `None` to `__class__` or
        `__dict__`, which only accept a class and a dictionary. */
    | WrongAttributeType(attrName: string)
    /** `AttributeError` from assigning to the read-only `__weakref__`. */
    | ReadOnlyAttribute(attrName: string)
    /** `AttributeError` from reading an attribute that was never set. */
    | AttributeMissing(attr: string)
    /** `KeyError` from a dictionary lookup. */
    | KeyMissing
    /** `TypeError` from subscripting text or `None` by a name. */
    | NotSubscriptable

  /** Success with a value, or the exception that aborted the computation. */
  datatype Result<+T> = Ok(value: T) | Err(error: Error) {

    predicate IsFailure() {
      Err?
    }

    function PropagateFailure<U>(): Result<U>
      requires Err?
    {
      Err(error)
    }

    function Extract(): T
      requires Ok?
    {
      value
    }
  }

  /** Applying `f` to each element in order, stopping at the first failure:
      a Python loop whose body may raise. */
  function MapAll<A, B>(f: A -> Result<B>, xs: seq<A>): (r: Result<seq<B>>)
    ensures r.Ok? <==> forall i :: 0 <= i < |xs| ==> f(xs[i]).Ok?
    ensures r.Ok? ==> |r.value| == |xs| && forall i :: 0 <= i < |xs| ==> f(xs[i]) == Ok(r.value[i])
    ensures r.Err? ==> exists i :: FirstFailure(f, xs, i) && f(xs[i]) == Err(r.error)
  {
    if xs == [] then Ok([])
    else
      match f(xs[0])
      case Err(e) =>
        assert FirstFailure(f, xs, 0);
        Err(e)
      case Ok(first) =>
        var rest := MapAll(f, xs[1..]);
        assert forall i :: 1 <= i < |xs| ==> xs[i] == xs[1..][i - 1];
        if rest.Err? then
          assert exists i :: FirstFailure(f, xs, i) && f(xs[i]) == Err(rest.error) by {
            var i :| FirstFailure(f, xs[1..], i) && f(xs[1..][i]) == Err(rest.error);
            assert FirstFailure(f, xs, i + 1);
          }
          Err(rest.error)
        else
          Ok([first] + rest.value)
  }

  /** `xs[i]` is the first element on which `f` fails. */
  ghost predicate FirstFailure<A, B>(f: A -> Result<B>, xs: seq<A>, i: int) {
    && 0 <= i < |xs| && f(xs[i]).Err?
    && forall j :: 0 <= j < i ==> f(xs[j]).Ok?
  }

  /** Threading a state through `step` for each element in order, stopping
      at the first failure. */
  function FoldAll<S, A>(step: (S, A) -> Result<S>, xs: seq<A>, acc: S): Result<S> {
    if xs == [] then Ok(acc)
    else
      match step(acc, xs[0])
      case Err(e) => Err(e)
      case Ok(next) => FoldAll(step, xs[1..], next)
  }
}

=== FILE: pydict.dfy ===
/** Python dictionaries as insertion-ordered association lists: assigning
    to an existing key replaces its value in place, assigning to a new key
    appends it. Iteration (`items()`) follows the list order. */
module PyDict {
  import opened Outcomes

  type Dict<K, V> = seq<(K, V)>

  /** The keys in iteration order. */
  function Keys<K, V>(d: Dict<K, V>): (r: seq<K>)
    ensures |r| == |d|
    ensures forall i :: 0 <= i < |d| ==> r[i] == d[i].0
  {
    if d == [] then [] else [d[0].0] + Keys(d[1..])
  }

  /** No key is listed twice. */
  predicate Wf<K(==), V>(d: Dict<K, V>) {
    forall i, j :: 0 <= i < j < |d| ==> d[i].0 != d[j].0
  }

  /** `d.get(k)`: the value stored under `k`, or `None`. */
  function Get<K(==), V>(d: Dict<K, V>, k: K): (r: Option<V>)
    ensures r.None? <==> k !in Keys(d)
    ensures r.Some? ==> exists i :: 0 <= i < |d| && d[i] == (k, r.value)
  {
    if d == [] then None
    else if d[0].0 == k then Some(d[0].1)
    else Get(d[1..], k)
  }

  /** `d[k]`, which raises `KeyError` for a missing key. */
  function Lookup<K(==), V>(d: Dict<K, V>, k: K): (r: Result<V>)
    ensures r.Err? <==> k !in Keys(d)
    ensures r.Ok? ==> Get(d, k) == Some(r.value)
  {
    match Get(d, k)
    case None => Err(KeyMissing)
    case Some(v) => Ok(v)
  }

  /** `d[k] = v`: an existing key keeps its position, a new key goes last. */
  function Put<K(==), V>(d: Dict<K, V>, k: K, v: V): Dict<K, V> {
    if d == [] then [(k, v)]
    else if d[0].0 == k then [(k, v)] + d[1..]
    else [d[0]] + Put(d[1..], k, v)
  }

  /** Looking up a key in a list with a given first entry. */
  lemma ConsGet<K, V>(x: (K, V), rest: Dict<K, V>, k: K)
    ensures Get([x] + rest, k) == if x.0 == k then Some(x.1) else Get(rest, k)
  {
    assert ([x] + rest)[1..] == rest;
  }

  /** After `d[k] = v`, `k` holds `v` and every other key holds what it
      held before. */
  lemma {:induction false} PutGet<K, V>(d: Dict<K, V>, k: K, v: V, k': K)
    ensures Get(Put(d, k, v), k') == if k' == k then Some(v) else Get(d, k')
  {
    if d == [] {
      ConsGet((k, v), [], k');
    } else if d[0].0 == k {
      ConsGet((k, v), d[1..], k');
      ConsGet(d[0], d[1..], k');
      assert d == [d[0]] + d[1..];
    } else {
      PutGet(d[1..], k, v, k');
      ConsGet(d[0], Put(d[1..], k, v), k');
      ConsGet(d[0], d[1..], k');
      assert d == [d[0]] + d[1..];
    }
  }

  /** `d[k] = v` keeps the keys and their order, appending `k` when new. */
  lemma {:induction false} PutKeys<K, V>(d: Dict<K, V>, k: K, v: V)
    ensures k in Keys(d) ==> Keys(Put(d, k, v)) == Keys(d)
    ensures k !in Keys(d) ==> Keys(Put(d, k, v)) == Keys(d) + [k]
  {
    if d != [] && d[0].0 != k {
      PutKeys(d[1..], k, v);
      var rest := Put(d[1..], k, v);
      assert Keys([d[0]] + rest) == [d[0].0] + Keys(rest);
      assert Keys(d) == [d[0].0] + Keys(d[1..]);
      assert k in Keys(d) <==> k in Keys(d[1..]);
    } else if d != [] {
      assert Keys([(k, v)] + d[1..]) == [k] + Keys(d[1..]);
      assert Keys(d) == [d[0].0] + Keys(d[1..]);
    }
  }

  /** Assignment keeps keys unique. */
  lemma PutWf<K(!new), V>(d: Dict<K, V>, k: K, v: V)
    requires Wf(d)
    ensures Wf(Put(d, k, v))
  {
    var r := Put(d, k, v);
    var ks := Keys(r);
    PutKeys(d, k, v);
    if k in Keys(d) {
      assert forall i, j :: 0 <= i < j < |r| ==> ks[i] != ks[j] by {
        assert Keys(d) == ks;
      }
    } else {
      assert forall i, j :: 0 <= i < j < |r| ==> ks[i] != ks[j] by {
        assert ks == Keys(d) + [k];
        forall i, j | 0 <= i < j < |r| ensures ks[i] != ks[j] {
          if j < |d| {
            assert ks[i] == d[i].0 && ks[j] == d[j].0;
          } else {
            assert ks[i] == Keys(d)[i];
          }
        }
      }
    }
  }

  /** `for k, v in pairs: d[k] = v`. */
  function PutAll<K(==), V>(d: Dict<K, V>, pairs: seq<(K, V)>): Dict<K, V>
  {
    if pairs == [] then d
    else Put(PutAll(d, pairs[..|pairs| - 1]), pairs[|pairs| - 1].0, pairs[|pairs| - 1].1)
  }

  /** Assigning pairs that never mention `k` leaves `k` as it was. */
  lemma {:induction false} PutAllUntouched<K(!new), V>(d: Dict<K, V>, pairs: seq<(K, V)>, k: K)
    requires forall i :: 0 <= i < |pairs| ==> pairs[i].0 != k
    ensures Get(PutAll(d, pairs), k) == Get(d, k)
  {
    if pairs != [] {
      var n := |pairs| - 1;
      PutAllUntouched(d, pairs[..n], k);
      PutGet(PutAll(d, pairs[..n]), pairs[n].0, pairs[n].1, k);
    }
  }

  /** After assigning every pair, a key holds the value of its LAST pair. */
  lemma {:induction false} PutAllLastWins<K(!new), V>(d: Dict<K, V>, pairs: seq<(K, V)>, i: int)
    requires 0 <= i < |pairs|
    requires forall j :: i < j < |pairs| ==> pairs[j].0 != pairs[i].0
    ensures Get(PutAll(d, pairs), pairs[i].0) == Some(pairs[i].1)
  {
    var n := |pairs| - 1;
    PutGet(PutAll(d, pairs[..n]), pairs[n].0, pairs[n].1, pairs[i].0);
    if i < n {
      PutAllLastWins(d, pairs[..n], i);
    }
  }

  /** The keys after assigning all pairs depend only on the starting keys
      and the keys of the pairs, in order. */
  lemma {:induction false} PutAllSameKeys<K(!new), V, W>(d: Dict<K, V>, e: Dict<K, W>, ps: seq<(K, V)>, qs: seq<(K, W)>)
    requires Keys(d) == Keys(e)
    requires |ps| == |qs| && forall i :: 0 <= i < |ps| ==> ps[i].0 == qs[i].0
    ensures Keys(PutAll(d, ps)) == Keys(PutAll(e, qs))
  {
    if ps != [] {
      var n := |ps| - 1;
      PutAllSameKeys(d, e, ps[..n], qs[..n]);
      PutKeys(PutAll(d, ps[..n]), ps[n].0, ps[n].1);
      PutKeys(PutAll(e, qs[..n]), qs[n].0, qs[n].1);
    }
  }

  /** Assigning pairs one by one never lists a key twice. */
  lemma {:induction false} PutAllWf<K(!new), V>(d: Dict<K, V>, pairs: seq<(K, V)>)
    requires Wf(d)
    ensures Wf(PutAll(d, pairs))
  {
    if pairs != [] {
      var n := |pairs| - 1;
      PutAllWf(d, pairs[..n]);
      PutWf(PutAll(d, pairs[..n]), pairs[n].0, pairs[n].1);
    }
  }

  /** A key is present after assigning all pairs exactly when it was present
      before or some pair mentions it. */
  lemma PutAllKeys<K(!new), V>(d: Dict<K, V>, pairs: seq<(K, V)>, k: K)
    ensures k in Keys(PutAll(d, pairs)) <==> k in Keys(d) || exists i :: 0 <= i < |pairs| && pairs[i].0 == k
  {
    if exists i :: 0 <= i < |pairs| && pairs[i].0 == k {
      var i :| 0 <= i < |pairs| && pairs[i].0 == k;
      var last := LastOccurrence(pairs, i);
      PutAllLastWins(d, pairs, last);
    } else {
      PutAllUntouched(d, pairs, k);
    }
  }

  /** The last pair with the same key as `pairs[i]`. */
  lemma {:induction false} LastOccurrence<K, V>(pairs: seq<(K, V)>, i: int) returns (j: int)
    requires 0 <= i < |pairs|
    ensures i <= j < |pairs| && pairs[j].0 == pairs[i].0
    ensures forall m :: j < m < |pairs| ==> pairs[m].0 != pairs[i].0
    decreases |pairs| - i
  {
    if m :| i < m < |pairs| && pairs[m].0 == pairs[i].0 {
      j := LastOccurrence(pairs, m);
    } else {
      j := i;
    }
  }
}

=== FILE: pystr.dfy ===
/** The few Python string operations the compiler relies on:
    `startswith`, `split(sep, 1)` and `upper`. */
module PyStr {
  import opened Outcomes

  /** `s.startswith(prefix)`. */
  predicate StartsWith(s: string, prefix: string) {
    |prefix| <= |s| && s[..|prefix|] == prefix
  }

  /** `sep` occurs in `s` starting at index `i`. */
  predicate OccursAt(s: string, sep: string, i: nat) {
    i + |sep| <= |s| && s[i..i + |sep|] == sep
  }

  /** The first index at or after `from` where `sep` occurs in `s`. */
  function Find(s: string, sep: string, from: nat): (r: Option<nat>)
    ensures r.Some? ==> from <= r.value && OccursAt(s, sep, r.value)
    ensures r.Some? ==> forall j: nat :: from <= j < r.value ==> !OccursAt(s, sep, j)
    ensures r.None? ==> forall j: nat :: from <= j ==> !OccursAt(s, sep, j)
    decreases |s| - from
  {
    if from + |sep| > |s| then None
    else if s[from..from + |sep|] == sep then Some(from)
    else Find(s, sep, from + 1)
  }

  /** `s.split(sep, 1)`: one piece when `sep` does not occur, otherwise the
      text before and after its first occurrence. An empty separator is a
      `ValueError`. */
  function Split1(s: string, sep: string): (r: Result<seq<string>>)
    ensures r.Err? <==> sep == ""
    ensures r.Ok? ==> 1 <= |r.value| <= 2
    ensures r.Ok? && |r.value| == 1 ==> r.value[0] == s && forall j: nat :: !OccursAt(s, sep, j)
    ensures r.Ok? && |r.value| == 2 ==>
      r.value[0] + sep + r.value[1] == s && forall j: nat :: j < |r.value[0]| ==> !OccursAt(s, sep, j)
  {
    if sep == "" then Err(SeparatorEmpty)
    else match Find(s, sep, 0)
      case None => Ok([s])
      case Some(i) =>
        assert s[..i] + sep + s[i + |sep|..] == s by {
          assert s[i..i + |sep|] == sep;
          assert s == s[..i] + s[i..i + |sep|] + s[i + |sep|..];
        }
        Ok([s[..i], s[i + |sep|..]])
  }

  /** Splitting at a separator that `s` starts with yields the empty string
      and the rest of `s` after that separator. */
  lemma SplitAtPrefix(s: string, sep: string)
    requires sep != "" && StartsWith(s, sep)
    ensures Split1(s, sep) == Ok(["", s[|sep|..]])
  {
    assert OccursAt(s, sep, 0);
  }

  /** Python's `str.upper` restricted to ASCII letters. */
  function UpperChar(c: char): char {
    if 'a' <= c <= 'z' then (c as int - 32) as char else c
  }

  /** `s.upper()` on ASCII letters; every other character is kept. */
  function Upper(s: string): (r: string)
    ensures |r| == |s|
    ensures forall i :: 0 <= i < |s| ==> !('a' <= r[i] <= 'z')
    ensures forall i :: 0 <= i < |s| && !('a' <= s[i] <= 'z') ==> r[i] == s[i]
    ensures forall i :: 0 <= i < |s| && 'a' <= s[i] <= 'z' ==> r[i] == (s[i] as int - 32) as char
  {
    seq(|s|, i requires 0 <= i < |s| => UpperChar(s[i]))
  }
}

=== FILE: rdf.dfy ===
/** RDF terms, a triple graph as a finite sequence, and the rdflib queries
    the compiler and binder use. A query position left as `None` is a
    wildcard, as in rdflib. */
module Rdf {
  import opened Outcomes

  /** The Python value of a literal (`Literal.value`). */
  datatype Value = StrValue(s: string) | IntValue(i: int)

  /** A literal whose lexical form does not fit its datatype has no Python
      value (`value` is `None`). */
  datatype Term =
    | Iri(iri: string)
    | Blank(id: string)
    | Literal(lexical: string, value: Option<Value>)

  datatype Triple = Triple(s: Term, p: Term, o: Term)

  type Graph = seq<Triple>

  const RDF_TYPE := Iri("http://www.w3.org/1999/02/22-rdf-syntax-ns#type")
  const XSD_STRING := Iri("http://www.w3.org/2001/XMLSchema#string")
  const SH_SHAPE := Iri("http://www.w3.org/ns/shacl#Shape")
  const SH_NODE_SHAPE := Iri("http://www.w3.org/ns/shacl#NodeShape")
  const SH_PROPERTY := Iri("http://www.w3.org/ns/shacl#property")
  const SH_NAME := Iri("http://www.w3.org/ns/shacl#name")
  const SH_PATH := Iri("http://www.w3.org/ns/shacl#path")
  const SH_DATATYPE := Iri("http://www.w3.org/ns/shacl#datatype")
  const SH_NODE := Iri("http://www.w3.org/ns/shacl#node")
  const SH_MAX_COUNT := Iri("http://www.w3.org/ns/shacl#maxCount")
  const SH_TARGET_CLASS := Iri("http://www.w3.org/ns/shacl#targetClass")

  /** `str(t)`: every rdflib term is a string subclass. */
  function Lexical(t: Term): string {
    match t
    case Iri(i) => i
    case Blank(id) => id
    case Literal(lex, _) => lex
  }

  /** Python truthiness of a term: a literal with a value is as true as that
      value, any other term is true when its string is non-empty. */
  predicate Truthy(t: Term) {
    match t
    case Literal(lex, Some(StrValue(s))) => s != ""
    case Literal(lex, Some(IntValue(i))) => i != 0
    case _ => Lexical(t) != ""
  }

  /** Truthiness of a query result; `None` is false. */
  predicate TruthyOpt(t: Option<Term>) {
    t.Some? && Truthy(t.value)
  }

  /** Reading the `.value` attribute: only literals have one. */
  function ValueAttr(t: Option<Term>): (r: Result<Option<Value>>)
    ensures r.Ok? <==> t.Some? && t.value.Literal?
    ensures r.Ok? ==> r.value == t.value.value
  {
    match t
    case Some(Literal(_, v)) => Ok(v)
    case _ => Err(NoValueAttribute)
  }

  /** A query position: `None` matches every term. */
  predicate Fits(t: Term, pattern: Option<Term>) {
    pattern.None? || pattern.value == t
  }

  /** `g.objects(s, p)`: the objects of the matching triples, in graph order. */
  function Objects(g: Graph, s: Option<Term>, p: Option<Term>): seq<Term> {
    if g == [] then []
    else (if Fits(g[0].s, s) && Fits(g[0].p, p) then [g[0].o] else []) + Objects(g[1..], s, p)
  }

  /** `g.subjects(p, o)`: the subjects of the matching triples, in graph order. */
  function Subjects(g: Graph, p: Option<Term>, o: Option<Term>): seq<Term> {
    if g == [] then []
    else (if Fits(g[0].p, p) && Fits(g[0].o, o) then [g[0].s] else []) + Subjects(g[1..], p, o)
  }

  /** The subjects typed `sh:Shape`, in graph order. */
  function ShapeSubjects(g: Graph): seq<Term> {
    Subjects(g, Some(RDF_TYPE), Some(SH_SHAPE))
  }

  /** The subjects typed `sh:NodeShape`, in graph order. */
  function NodeShapeSubjects(g: Graph): seq<Term> {
    Subjects(g, Some(RDF_TYPE), Some(SH_NODE_SHAPE))
  }

  /** The triple at index `i` is the first one with subject `s` and
      predicate `p`. */
  predicate FirstWith(g: Graph, s: Term, p: Term, i: int) {
    && 0 <= i < |g| && g[i].s == s && g[i].p == p
    && forall j :: 0 <= j < i ==> !(g[j].s == s && g[j].p == p)
  }

  /** The triple at index `i` is the first one with predicate `p` and
      object `o`. */
  predicate FirstTyped(g: Graph, p: Term, o: Term, i: int) {
    && 0 <= i < |g| && g[i].p == p && g[i].o == o
    && forall j :: 0 <= j < i ==> !(g[j].p == p && g[j].o == o)
  }

  /** `g.value(s, p)`: the object of the first triple `(s, p, ?)`, or `None`. */
  function ValueObject(g: Graph, s: Term, p: Term): (r: Option<Term>)
    ensures r.None? <==> forall i :: 0 <= i < |g| ==> !(g[i].s == s && g[i].p == p)
    ensures r.Some? ==> exists i :: FirstWith(g, s, p, i) && g[i].o == r.value
  {
    var os := Objects(g, Some(s), Some(p));
    ObjectsEmpty(g, s, p);
    if os == [] then None
    else
      ObjectsHead(g, s, p);
      Some(os[0])
  }

  /** `g.value(predicate=p, object=o)`: the subject of the first triple
      `(?, p, o)`. rdflib answers `None` without looking when `o` is `None`,
      since two positions are then unbound. */
  function ValueSubject(g: Graph, p: Term, o: Option<Term>): (r: Option<Term>)
    ensures o.None? ==> r.None?
    ensures o.Some? ==> (r.None? <==> forall i :: 0 <= i < |g| ==> !(g[i].p == p && g[i].o == o.value))
    ensures r.Some? ==> exists i :: FirstTyped(g, p, o.value, i) && g[i].s == r.value
  {
    if o.None? then None
    else
      var ss := Subjects(g, Some(p), o);
      SubjectsEmpty(g, p, o.value);
      if ss == [] then None
      else
        SubjectsHead(g, p, o.value);
        Some(ss[0])
  }

  /** No object is listed exactly when no triple matches. */
  lemma ObjectsEmpty(g: Graph, s: Term, p: Term)
    ensures Objects(g, Some(s), Some(p)) == [] <==> forall i :: 0 <= i < |g| ==> !(g[i].s == s && g[i].p == p)
  {
    var os := Objects(g, Some(s), Some(p));
    if os != [] {
      ObjectsMember(g, Some(s), Some(p), os[0]);
    } else {
      forall i | 0 <= i < |g| ensures !(g[i].s == s && g[i].p == p) {
        ObjectsMember(g, Some(s), Some(p), g[i].o);
      }
    }
  }

  /** The first object listed is that of the first matching triple. */
  lemma {:induction false} ObjectsHead(g: Graph, s: Term, p: Term)
    requires Objects(g, Some(s), Some(p)) != []
    ensures exists i :: FirstWith(g, s, p, i) && g[i].o == Objects(g, Some(s), Some(p))[0]
  {
    if g[0].s == s && g[0].p == p {
      assert FirstWith(g, s, p, 0);
    } else {
      assert Objects(g, Some(s), Some(p)) == Objects(g[1..], Some(s), Some(p));
      ObjectsHead(g[1..], s, p);
      var i :| FirstWith(g[1..], s, p, i) && g[1..][i].o == Objects(g[1..], Some(s), Some(p))[0];
      assert FirstWith(g, s, p, i + 1) by {
        forall j | 1 <= j < i + 1 ensures g[j] == g[1..][j - 1] { }
      }
    }
  }

  /** No subject is listed exactly when no triple matches. */
  lemma SubjectsEmpty(g: Graph, p: Term, o: Term)
    ensures Subjects(g, Some(p), Some(o)) == [] <==> forall i :: 0 <= i < |g| ==> !(g[i].p == p && g[i].o == o)
  {
    var ss := Subjects(g, Some(p), Some(o));
    if ss != [] {
      SubjectsMember(g, Some(p), Some(o), ss[0]);
    } else {
      forall i | 0 <= i < |g| ensures !(g[i].p == p && g[i].o == o) {
        SubjectsMember(g, Some(p), Some(o), g[i].s);
      }
    }
  }

  /** The first subject listed is that of the first matching triple. */
  lemma {:induction false} SubjectsHead(g: Graph, p: Term, o: Term)
    requires Subjects(g, Some(p), Some(o)) != []
    ensures exists i :: FirstTyped(g, p, o, i) && g[i].s == Subjects(g, Some(p), Some(o))[0]
  {
    if g[0].p == p && g[0].o == o {
      assert FirstTyped(g, p, o, 0);
    } else {
      assert Subjects(g, Some(p), Some(o)) == Subjects(g[1..], Some(p), Some(o));
      SubjectsHead(g[1..], p, o);
      var i :| FirstTyped(g[1..], p, o, i) && g[1..][i].s == Subjects(g[1..], Some(p), Some(o))[0];
      assert FirstTyped(g, p, o, i + 1) by {
        forall j | 1 <= j < i + 1 ensures g[j] == g[1..][j - 1] { }
      }
    }
  }

  /** `objects` distributes over concatenation of graphs: together with its
      value on a single triple this fixes the result, one object per
      matching triple, in graph order. */
  lemma {:induction false} ObjectsAppend(g1: Graph, g2: Graph, s: Option<Term>, p: Option<Term>)
    ensures Objects(g1 + g2, s, p) == Objects(g1, s, p) + Objects(g2, s, p)
  {
    if g1 == [] {
      assert g1 + g2 == g2;
    } else {
      assert (g1 + g2)[0] == g1[0];
      assert (g1 + g2)[1..] == g1[1..] + g2;
      ObjectsAppend(g1[1..], g2, s, p);
    }
  }

  /** Every listed object comes from a matching triple, and every matching
      triple contributes its object. */
  lemma {:induction false} ObjectsMember(g: Graph, s: Option<Term>, p: Option<Term>, o: Term)
    ensures o in Objects(g, s, p) <==>
      exists i :: 0 <= i < |g| && Fits(g[i].s, s) && Fits(g[i].p, p) && g[i].o == o
  {
    if g != [] {
      ObjectsMember(g[1..], s, p, o);
      assert forall i :: 1 <= i < |g| ==> g[i] == g[1..][i - 1];
      if o in Objects(g[1..], s, p) {
        var i :| 0 <= i < |g[1..]| && Fits(g[1..][i].s, s) && Fits(g[1..][i].p, p) && g[1..][i].o == o;
        assert g[i + 1] == g[1..][i];
      }
    }
  }

  /** Every listed subject comes from a matching triple, and every matching
      triple contributes its subject. */
  lemma {:induction false} SubjectsMember(g: Graph, p: Option<Term>, o: Option<Term>, t: Term)
    ensures t in Subjects(g, p, o) <==>
      exists i :: 0 <= i < |g| && Fits(g[i].p, p) && Fits(g[i].o, o) && g[i].s == t
  {
    if g != [] {
      SubjectsMember(g[1..], p, o, t);
      assert forall i :: 1 <= i < |g| ==> g[i] == g[1..][i - 1];
      if t in Subjects(g[1..], p, o) {
        var i :| 0 <= i < |g[1..]| && Fits(g[1..][i].p, p) && Fits(g[1..][i].o, o) && g[1..][i].s == t;
        assert g[i + 1] == g[1..][i];
      }
    }
  }
}

=== FILE: shape_compiler.dfy ===
/** The SHACL compiler of `orm_shacl/shacl_class_generator.py`: every shape
    of the shapes graph becomes a class (name, target class, one attribute
    per property) registered by name, plus a schema record handed to the
    code emitter. Each class is plain data here instead of a synthesised
    Python type. */
module ShapeCompiler {
  import opened Outcomes
  import opened Rdf
  import opened PyDict
  import opened Namespaces

  /** The `max_count` object: `None`, the literal's Python value, or the
      literal term itself when that term is falsy (`if max_count:` skips the
      `.value` read, e.g. for `sh:maxCount 0`). */
  datatype MaxCount = MaxNone | MaxValue(v: Value) | MaxTerm(t: Term)

  /** The `data_type` of a property: a datatype term or a registered class. */
  datatype Kind = Datatype(term: Term) | Nested(schema: ShapeClass)

  /** The arguments given to `RDFProperty` for one `sh:property`. */
  datatype Property = Property(
    name: Value,
    kind: Kind,
    path: Term,
    maxCount: MaxCount,
    constraints: seq<(Term, Term)>)

  /** The class made for one shape: `__name__`, `_target_class` and its
      attributes. */
  datatype ShapeClass = ShapeClass(name: string, targetClass: Option<Term>, attributes: Dict<Value, Property>)

  /** One `(name, datatype, path, max_count)` tuple of `prop_parameters`. */
  datatype Param = Param(name: Value, dataType: Option<string>, path: Option<string>, maxCount: MaxCount)

  /** The `Schema` namedtuple given to the code emitter. */
  datatype Schema = Schema(name: string, targetClass: Option<string>, params: seq<Param>)

  /** `classes` together with `schemas`. */
  datatype Compiled = Compiled(classes: Dict<string, ShapeClass>, schemas: seq<Schema>)

  /** Reading `sh:maxCount`: the literal's value when the term is truthy,
      the term itself when it is falsy, `None` when absent. */
  function ReadMaxCount(t: Option<Term>): (r: Result<MaxCount>)
    ensures t.None? ==> r == Ok(MaxNone)
    ensures r.Err? <==> t.Some? && Truthy(t.value) && !t.value.Literal?
    ensures r.Err? ==> r.error == NoValueAttribute
    ensures t.Some? && !Truthy(t.value) ==> r == Ok(MaxTerm(t.value))
    ensures t.Some? && Truthy(t.value) && t.value.Literal? ==>
      r == Ok(if t.value.value.None? then MaxNone else MaxValue(t.value.value.value))
  {
    match t
    case None => Ok(MaxNone)
    case Some(term) =>
      if !Truthy(term) then Ok(MaxTerm(term))
      else
        var v :- ValueAttr(t);
        Ok(if v.None? then MaxNone else MaxValue(v.value))
  }

  /** Looking a nested shape's name up among the classes compiled so far. */
  function ResolveNested(classes: Dict<string, ShapeClass>, name: string): (r: Result<Kind>)
    ensures r.Err? <==> name !in Keys(classes)
    ensures r.Err? ==> r.error == UnknownSchema(name)
    ensures r.Ok? ==> r.value.Nested? && Get(classes, name) == Some(r.value.schema)
  {
    match Get(classes, name)
    case None => Err(UnknownSchema(name))
    case Some(c) => Ok(Nested(c))
  }

  /** Reading `sh:name` through `.value`: no such triple, or an object that
      is not a literal, is an `AttributeError`; a literal without a Python
      value is "sh:name is required". */
  function PropertyName(g: Graph, prop: Term): (r: Result<Value>)
    ensures ValueObject(g, prop, SH_NAME).None? ==> r == Err(NoValueAttribute)
    ensures forall lex :: ValueObject(g, prop, SH_NAME) == Some(Literal(lex, None)) ==> r == Err(NameRequired)
    ensures r.Ok? ==> exists lex :: ValueObject(g, prop, SH_NAME) == Some(Literal(lex, Some(r.value)))
    ensures forall lex, v :: ValueObject(g, prop, SH_NAME) == Some(Literal(lex, Some(v))) ==> r == Ok(v)
    ensures r.Err? ==> r.error == NoValueAttribute || r.error == NameRequired
    ensures ValueAttr(ValueObject(g, prop, SH_NAME)).Err? ==> r == Err(NoValueAttribute)
  {
    var name :- ValueAttr(ValueObject(g, prop, SH_NAME));
    if name.None? then Err(NameRequired) else Ok(name.value)
  }

  /** The `data_type` and `node` variables once the `sh:datatype` /
      `sh:node` defaults are applied. */
  datatype Declared = Declared(dataType: Option<Term>, node: Option<Term>)

  /** `sh:datatype` if truthy; otherwise `sh:node` is read, and when that is
      not truthy either the datatype becomes `xsd:string`. */
  function Declare(g: Graph, prop: Term): (r: Declared)
    ensures TruthyOpt(ValueObject(g, prop, SH_DATATYPE)) ==> r == Declared(ValueObject(g, prop, SH_DATATYPE), None)
    ensures !TruthyOpt(ValueObject(g, prop, SH_DATATYPE)) && !TruthyOpt(ValueObject(g, prop, SH_NODE)) ==>
      r.dataType == Some(XSD_STRING) && !TruthyOpt(r.node)
    ensures !TruthyOpt(ValueObject(g, prop, SH_DATATYPE)) && TruthyOpt(ValueObject(g, prop, SH_NODE)) ==>
      !TruthyOpt(r.dataType) && r.node == ValueObject(g, prop, SH_NODE)
    // exactly one of the two is truthy, so the "both" check cannot fire
    ensures TruthyOpt(r.dataType) != TruthyOpt(r.node)
  {
    var explicit := ValueObject(g, prop, SH_DATATYPE);
    var node := if TruthyOpt(explicit) then None else ValueObject(g, prop, SH_NODE);
    var dataType := if !TruthyOpt(explicit) && !TruthyOpt(node) then Some(XSD_STRING) else explicit;
    Declared(dataType, node)
  }

  /** The "both" check, then the registry lookup of a nested shape;
      otherwise the datatype term. */
  function ResolveKind(classes: Dict<string, ShapeClass>, extractName: Term -> string, d: Declared): (r: Result<Kind>)
    requires TruthyOpt(d.dataType) || TruthyOpt(d.node)
    ensures r.Err? <==> (TruthyOpt(d.dataType) && TruthyOpt(d.node))
                        || (!TruthyOpt(d.dataType) && extractName(d.node.value) !in Keys(classes))
    ensures r.Err? ==> r.error == if TruthyOpt(d.dataType) then NodeAndDatatype else UnknownSchema(extractName(d.node.value))
    ensures r.Ok? ==> (r.value.Datatype? <==> TruthyOpt(d.dataType))
    ensures r.Ok? && r.value.Datatype? ==> Some(r.value.term) == d.dataType
    ensures r.Ok? && r.value.Nested? ==> Get(classes, extractName(d.node.value)) == Some(r.value.schema)
  {
    if TruthyOpt(d.dataType) && TruthyOpt(d.node) then Err(NodeAndDatatype)
    else if !TruthyOpt(d.dataType) && TruthyOpt(d.node) then ResolveNested(classes, extractName(d.node.value))
    else Ok(Datatype(d.dataType.value))
  }

  /** The prefixed forms of `prop_parameters`: the path and datatype
      converted; a nested shape is given by its class name. */
  function Emit(table: seq<Namespace>, name: Value, kind: Kind, path: Term, maxCount: MaxCount): (r: Result<Param>)
    ensures r.Ok? ==> r.value.name == name && r.value.maxCount == maxCount
    ensures r.Ok? ==> Convert(table, Lexical(path)) == Ok(r.value.path)
    ensures r.Ok? && kind.Nested? ==> r.value.dataType == Some(kind.schema.name)
    ensures r.Ok? && kind.Datatype? ==> Convert(table, Lexical(kind.term)) == Ok(r.value.dataType)
    ensures r.Err? ==> r.error == SeparatorEmpty
    ensures r.Ok? <==> Convert(table, Lexical(path)).Ok? && (kind.Datatype? ==> Convert(table, Lexical(kind.term)).Ok?)
  {
    var ppPath :- Convert(table, Lexical(path));
    var ppDatatype :- match kind
                      case Nested(c) => Ok(Some(c.name))
                      case Datatype(t) => Convert(table, Lexical(t));
    Ok(Param(name, ppDatatype, ppPath, maxCount))
  }

  /** The property has no truthy `sh:datatype` and a truthy `sh:node` naming
      the shape `n`. */
  ghost predicate NestedRef(g: Graph, extractName: Term -> string, prop: Term, n: string) {
    && !TruthyOpt(ValueObject(g, prop, SH_DATATYPE))
    && TruthyOpt(ValueObject(g, prop, SH_NODE))
    && extractName(ValueObject(g, prop, SH_NODE).value) == n
  }

  /** One iteration of the property loop of `parse_class`: the checks run
      in source order (name, path, `sh:maxCount`, kind, prefixed forms) and
      the first failing one aborts. */
  function ParseProperty(g: Graph, table: seq<Namespace>, classes: Dict<string, ShapeClass>,
                         extractName: Term -> string, prop: Term): (r: Result<(Property, Param)>)
    ensures PropertyName(g, prop).Err? ==> r == Err(PropertyName(g, prop).error)
    ensures PropertyName(g, prop).Ok? && ValueObject(g, prop, SH_PATH).None? ==> r == Err(PathRequired)
    ensures r.Err? ==> r.error != NodeAndDatatype
    ensures r.Ok? ==> PropertyName(g, prop) == Ok(r.value.0.name)
    ensures r.Ok? ==> ValueObject(g, prop, SH_PATH) == Some(r.value.0.path)
    ensures r.Ok? ==> ResolveKind(classes, extractName, Declare(g, prop)) == Ok(r.value.0.kind)
    ensures r.Ok? ==> ReadMaxCount(ValueObject(g, prop, SH_MAX_COUNT)) == Ok(r.value.0.maxCount)
    ensures r.Ok? ==> r.value.0.constraints == []
    ensures r.Ok? ==> Emit(table, r.value.0.name, r.value.0.kind, r.value.0.path, r.value.0.maxCount) == Ok(r.value.1)
    ensures PropertyName(g, prop).Ok? && ValueObject(g, prop, SH_PATH).Some? ==>
      var m := ReadMaxCount(ValueObject(g, prop, SH_MAX_COUNT));
      var k := ResolveKind(classes, extractName, Declare(g, prop));
      && (m.Err? ==> r == Err(m.error))
      && (m.Ok? && k.Err? ==> r == Err(k.error))
      && (m.Ok? && k.Ok? ==>
            (r.Ok? <==> Emit(table, PropertyName(g, prop).value, k.value, ValueObject(g, prop, SH_PATH).value, m.value).Ok?))
      && (m.Ok? && k.Ok? && Emit(table, PropertyName(g, prop).value, k.value, ValueObject(g, prop, SH_PATH).value, m.value).Err? ==>
            r == Err(SeparatorEmpty))
  {
    var name :- PropertyName(g, prop);
    var path := ValueObject(g, prop, SH_PATH);
    if path.None? then Err(PathRequired)
    else
      var declared := Declare(g, prop);
      var maxCount :- ReadMaxCount(ValueObject(g, prop, SH_MAX_COUNT));
      var kind :- ResolveKind(classes, extractName, declared);
      var param :- Emit(table, name, kind, path.value, maxCount);
      Ok((Property(name, kind, path.value, maxCount, []), param))
  }

  /** The value kind in terms of the shapes graph: a truthy `sh:datatype`
      wins whatever `sh:node` says, a truthy `sh:node` gives the class
      registered under the referenced shape's name, and with neither the
      kind is `xsd:string`. */
  lemma PropertyKind(g: Graph, table: seq<Namespace>, classes: Dict<string, ShapeClass>,
                     extractName: Term -> string, prop: Term)
    requires ParseProperty(g, table, classes, extractName, prop).Ok?
    ensures var k := ParseProperty(g, table, classes, extractName, prop).value.0.kind;
            && (TruthyOpt(ValueObject(g, prop, SH_DATATYPE)) ==> k == Datatype(ValueObject(g, prop, SH_DATATYPE).value))
            && (!TruthyOpt(ValueObject(g, prop, SH_DATATYPE)) && !TruthyOpt(ValueObject(g, prop, SH_NODE)) ==>
                  k == Datatype(XSD_STRING))
            && (forall n :: NestedRef(g, extractName, prop, n) ==>
                  n in Keys(classes) && k.Nested? && Get(classes, n) == Some(k.schema))
  {
  }

  /** A `sh:node` reference to a name that is not yet a key of `classes`
      raises "not a known schema" once the name, path and `sh:maxCount` have
      been read without error. */
  lemma UnknownNestedFails(g: Graph, table: seq<Namespace>, classes: Dict<string, ShapeClass>,
                           extractName: Term -> string, prop: Term, n: string)
    requires NestedRef(g, extractName, prop, n) && n !in Keys(classes)
    requires PropertyName(g, prop).Ok? && ValueObject(g, prop, SH_PATH).Some?
    requires ReadMaxCount(ValueObject(g, prop, SH_MAX_COUNT)).Ok?
    ensures ParseProperty(g, table, classes, extractName, prop) == Err(UnknownSchema(n))
  {
  }

  /** `max_count` is the literal's value when `sh:maxCount` holds a truthy
      literal, the term itself when that term is falsy, and `None` when there
      is no `sh:maxCount`; a compiled property never has a truthy
      `sh:maxCount` that is not a literal. */
  lemma MaxCountFromGraph(g: Graph, table: seq<Namespace>, classes: Dict<string, ShapeClass>,
                          extractName: Term -> string, prop: Term)
    requires ParseProperty(g, table, classes, extractName, prop).Ok?
    ensures var mc := ValueObject(g, prop, SH_MAX_COUNT);
            var m := ParseProperty(g, table, classes, extractName, prop).value.0.maxCount;
            && (mc.None? ==> m == MaxNone)
            && (mc.Some? && !Truthy(mc.value) ==> m == MaxTerm(mc.value))
            && (forall lex, v :: mc == Some(Literal(lex, Some(v))) && Truthy(Literal(lex, Some(v))) ==> m == MaxValue(v))
            && (mc.Some? && Truthy(mc.value) ==> mc.value.Literal?)
  {
  }

  /** The `sh:property` nodes of a shape, in graph order. */
  function PropsOf(g: Graph, subject: Term): seq<Term> {
    Objects(g, Some(subject), Some(SH_PROPERTY))
  }

  /** The whole property loop: every property compiled in order, the first
      failure aborting. */
  function ParseProperties(g: Graph, table: seq<Namespace>, classes: Dict<string, ShapeClass>,
                           extractName: Term -> string, props: seq<Term>): (r: Result<seq<(Property, Param)>>)
    ensures r.Ok? <==> forall i :: 0 <= i < |props| ==> ParseProperty(g, table, classes, extractName, props[i]).Ok?
    ensures r.Ok? ==> |r.value| == |props|
    ensures r.Ok? ==> forall i :: 0 <= i < |props| ==> ParseProperty(g, table, classes, extractName, props[i]) == Ok(r.value[i])
    ensures r.Err? ==> exists i :: FirstFailure(p => ParseProperty(g, table, classes, extractName, p), props, i)
                                   && ParseProperty(g, table, classes, extractName, props[i]) == Err(r.error)
  {
    MapAll(p => ParseProperty(g, table, classes, extractName, p), props)
  }

  /** `attributes[name] = RDFProperty(...)` for each compiled property. */
  function AttributePairs(parsed: seq<(Property, Param)>): (r: seq<(Value, Property)>)
    ensures |r| == |parsed|
    ensures forall i :: 0 <= i < |parsed| ==> r[i] == (parsed[i].0.name, parsed[i].0)
  {
    seq(|parsed|, i requires 0 <= i < |parsed| => (parsed[i].0.name, parsed[i].0))
  }

  /** `prop_parameters`, in property order. */
  function Params(parsed: seq<(Property, Param)>): (r: seq<Param>)
    ensures |r| == |parsed|
    ensures forall i :: 0 <= i < |parsed| ==> r[i] == parsed[i].1
  {
    seq(|parsed|, i requires 0 <= i < |parsed| => parsed[i].1)
  }

  /** `str(target_class)`, where a missing target class is `None`. */
  function TargetText(target: Option<Term>): string {
    if target.None? then "None" else Lexical(target.value)
  }

  /** `parse_class`: compile the properties against the classes known so far,
      then register one class under the shape's name and append one schema. */
  function ParseClass(g: Graph, table: seq<Namespace>, extractName: Term -> string,
                      acc: Compiled, subject: Term): (r: Result<Compiled>)
    ensures r.Ok? <==> ParseProperties(g, table, acc.classes, extractName, PropsOf(g, subject)).Ok?
                       && Convert(table, TargetText(ValueObject(g, subject, SH_TARGET_CLASS))).Ok?
    ensures ParseProperties(g, table, acc.classes, extractName, PropsOf(g, subject)).Err? ==>
      r == Err(ParseProperties(g, table, acc.classes, extractName, PropsOf(g, subject)).error)
    ensures ParseProperties(g, table, acc.classes, extractName, PropsOf(g, subject)).Ok?
            && Convert(table, TargetText(ValueObject(g, subject, SH_TARGET_CLASS))).Err? ==>
              r == Err(SeparatorEmpty)
    ensures r.Ok? && extractName(subject) in Keys(acc.classes) ==> Keys(r.value.classes) == Keys(acc.classes)
    ensures r.Ok? && extractName(subject) !in Keys(acc.classes) ==> Keys(r.value.classes) == Keys(acc.classes) + [extractName(subject)]
    ensures r.Ok? ==> |r.value.schemas| == |acc.schemas| + 1 && r.value.schemas[..|acc.schemas|] == acc.schemas
    ensures r.Ok? ==> r.value.schemas[|acc.schemas|].name == extractName(subject)
  {
    var schemaName := extractName(subject);
    var target := ValueObject(g, subject, SH_TARGET_CLASS);
    var parsed :- ParseProperties(g, table, acc.classes, extractName, PropsOf(g, subject));
    var cls := ShapeClass(schemaName, target, PutAll([], AttributePairs(parsed)));
    var classes := Put(acc.classes, schemaName, cls);
    PutKeys(acc.classes, schemaName, cls);
    var convTarget :- Convert(table, TargetText(target));
    Ok(Compiled(classes, acc.schemas + [Schema(schemaName, convTarget, Params(parsed))]))
  }

  /** A property without `sh:name` or without `sh:path` aborts the whole
      shape: no class is registered and no schema appended for it. */
  lemma MissingNameOrPathAborts(g: Graph, table: seq<Namespace>, extractName: Term -> string,
                                acc: Compiled, subject: Term, prop: Term)
    requires prop in PropsOf(g, subject)
    requires ValueObject(g, prop, SH_NAME).None? || ValueObject(g, prop, SH_PATH).None?
    ensures ParseClass(g, table, extractName, acc, subject).Err?
  {
    var props := PropsOf(g, subject);
    var j :| 0 <= j < |props| && props[j] == prop;
    assert ParseProperty(g, table, acc.classes, extractName, props[j]).Err?;
  }

  /** The class `parse_class` registers, and the registry around it. */
  lemma ParseClassEntry(g: Graph, table: seq<Namespace>, extractName: Term -> string,
                        acc: Compiled, subject: Term, k: string)
    requires ParseClass(g, table, extractName, acc, subject).Ok?
    ensures ParseProperties(g, table, acc.classes, extractName, PropsOf(g, subject)).Ok?
    ensures var parsed := ParseProperties(g, table, acc.classes, extractName, PropsOf(g, subject)).value;
            var cls := ShapeClass(extractName(subject), ValueObject(g, subject, SH_TARGET_CLASS),
                                  PutAll([], AttributePairs(parsed)));
            Get(ParseClass(g, table, extractName, acc, subject).value.classes, k)
            == if k == extractName(subject) then Some(cls) else Get(acc.classes, k)
  {
    var parsed := ParseProperties(g, table, acc.classes, extractName, PropsOf(g, subject)).value;
    var cls := ShapeClass(extractName(subject), ValueObject(g, subject, SH_TARGET_CLASS), PutAll([], AttributePairs(parsed)));
    assert ParseClass(g, table, extractName, acc, subject).value.classes == Put(acc.classes, extractName(subject), cls);
    PutGet(acc.classes, extractName(subject), cls, k);
  }

  /** The class a compiled shape registers: its `__name__` is the shape's
      name, its target class is the shape's `sh:targetClass`, and no other
      class entry changes. */
  lemma ParseClassRegisters(g: Graph, table: seq<Namespace>, extractName: Term -> string,
                            acc: Compiled, subject: Term)
    requires ParseClass(g, table, extractName, acc, subject).Ok?
    ensures var r := ParseClass(g, table, extractName, acc, subject).value;
            && Get(r.classes, extractName(subject)).Some?
            && Get(r.classes, extractName(subject)).value.name == extractName(subject)
            && Get(r.classes, extractName(subject)).value.targetClass == ValueObject(g, subject, SH_TARGET_CLASS)
            && forall k :: k != extractName(subject) ==> Get(r.classes, k) == Get(acc.classes, k)
  {
    ParseClassEntry(g, table, extractName, acc, subject, extractName(subject));
    forall k | k != extractName(subject)
      ensures Get(ParseClass(g, table, extractName, acc, subject).value.classes, k) == Get(acc.classes, k)
    {
      ParseClassEntry(g, table, extractName, acc, subject, k);
    }
  }

  /** The class's attributes hold one entry per property name; when two
      properties share a name the later one wins. */
  lemma ParseClassAttributes(g: Graph, table: seq<Namespace>, extractName: Term -> string,
                             acc: Compiled, subject: Term, i: int)
    requires ParseClass(g, table, extractName, acc, subject).Ok?
    requires 0 <= i < |PropsOf(g, subject)|
    ensures ParseProperties(g, table, acc.classes, extractName, PropsOf(g, subject)).Ok?
    ensures var parsed := ParseProperties(g, table, acc.classes, extractName, PropsOf(g, subject)).value;
            var cls := Get(ParseClass(g, table, extractName, acc, subject).value.classes, extractName(subject)).value;
            (forall j :: i < j < |parsed| ==> parsed[j].0.name != parsed[i].0.name) ==>
              Get(cls.attributes, parsed[i].0.name) == Some(parsed[i].0)
  {
    ParseClassEntry(g, table, extractName, acc, subject, extractName(subject));
    var parsed := ParseProperties(g, table, acc.classes, extractName, PropsOf(g, subject)).value;
    if forall j :: i < j < |parsed| ==> parsed[j].0.name != parsed[i].0.name {
      AttributesLastWins(parsed, i);
    }
  }

  /** The attribute dictionary keeps, per name, the last property of that
      name. */
  lemma AttributesLastWins(parsed: seq<(Property, Param)>, i: int)
    requires 0 <= i < |parsed|
    requires forall j :: i < j < |parsed| ==> parsed[j].0.name != parsed[i].0.name
    ensures Get(PutAll([], AttributePairs(parsed)), parsed[i].0.name) == Some(parsed[i].0)
  {
    PutAllLastWins([], AttributePairs(parsed), i);
  }

  /** The appended schema: the prefixed target class, and one
      `(name, datatype, path, max_count)` tuple per property, in order. */
  lemma ParseClassSchema(g: Graph, table: seq<Namespace>, extractName: Term -> string,
                         acc: Compiled, subject: Term)
    requires ParseClass(g, table, extractName, acc, subject).Ok?
    ensures ParseProperties(g, table, acc.classes, extractName, PropsOf(g, subject)).Ok?
    ensures var parsed := ParseProperties(g, table, acc.classes, extractName, PropsOf(g, subject)).value;
            var schema := ParseClass(g, table, extractName, acc, subject).value.schemas[|acc.schemas|];
            && Convert(table, TargetText(ValueObject(g, subject, SH_TARGET_CLASS))) == Ok(schema.targetClass)
            && |schema.params| == |PropsOf(g, subject)|
            && forall i :: 0 <= i < |parsed| ==> schema.params[i] == parsed[i].1
  {
  }

  /** One pass of `generate_classes`: `parse_class` on each subject in turn,
      the first failure aborting. */
  function ParseAll(g: Graph, table: seq<Namespace>, extractName: Term -> string,
                    subjects: seq<Term>, acc: Compiled): (r: Result<Compiled>)
    ensures subjects == [] ==> r == Ok(acc)
    ensures subjects != [] && ParseClass(g, table, extractName, acc, subjects[0]).Err? ==>
      r == Err(ParseClass(g, table, extractName, acc, subjects[0]).error)
  {
    FoldAll((c, s) => ParseClass(g, table, extractName, c, s), subjects, acc)
  }

  /** `k` is the name of one of the subjects. */
  ghost predicate NamedAmong(extractName: Term -> string, subjects: seq<Term>, k: string) {
    exists i :: 0 <= i < |subjects| && extractName(subjects[i]) == k
  }

  /** Unfolding a pass by one subject. */
  lemma ParseAllStep(g: Graph, table: seq<Namespace>, extractName: Term -> string,
                     subjects: seq<Term>, acc: Compiled)
    requires subjects != []
    ensures ParseClass(g, table, extractName, acc, subjects[0]).Err? ==> ParseAll(g, table, extractName, subjects, acc).Err?
    ensures ParseClass(g, table, extractName, acc, subjects[0]).Ok? ==>
      ParseAll(g, table, extractName, subjects, acc)
        == ParseAll(g, table, extractName, subjects[1..], ParseClass(g, table, extractName, acc, subjects[0]).value)
  {
  }

  /** Every successful `step` appends one schema, named after the subject,
      and keeps the earlier schemas. */
  ghost predicate AppendsNamedSchema(step: (Compiled, Term) -> Result<Compiled>, extractName: Term -> string) {
    forall c, s :: step(c, s).Ok? ==>
      && |step(c, s).value.schemas| == |c.schemas| + 1
      && step(c, s).value.schemas[..|c.schemas|] == c.schemas
      && step(c, s).value.schemas[|c.schemas|].name == extractName(s)
  }

  /** `parse_class` is such a step. */
  lemma ParseClassAppends(g: Graph, table: seq<Namespace>, extractName: Term -> string)
    ensures AppendsNamedSchema((c, s) => ParseClass(g, table, extractName, c, s), extractName)
  {
  }

  /** Folding such a step appends one schema per subject and keeps the
      earlier ones. */
  lemma {:induction false} FoldAppends(step: (Compiled, Term) -> Result<Compiled>, extractName: Term -> string,
                                       subjects: seq<Term>, acc: Compiled)
    requires AppendsNamedSchema(step, extractName)
    requires FoldAll(step, subjects, acc).Ok?
    ensures var r := FoldAll(step, subjects, acc).value;
            |r.schemas| == |acc.schemas| + |subjects| && r.schemas[..|acc.schemas|] == acc.schemas
  {
    if subjects != [] {
      var next := step(acc, subjects[0]).value;
      FoldAppends(step, extractName, subjects[1..], next);
      var rs := FoldAll(step, subjects, acc).value.schemas;
      assert rs[..|acc.schemas|] == rs[..|next.schemas|][..|acc.schemas|];
    }
  }

  /** Folding such a step names the schema appended for the first subject
      after it. */
  lemma FoldSchemaHead(step: (Compiled, Term) -> Result<Compiled>, extractName: Term -> string,
                       subjects: seq<Term>, acc: Compiled)
    requires AppendsNamedSchema(step, extractName)
    requires FoldAll(step, subjects, acc).Ok? && subjects != []
    ensures |FoldAll(step, subjects, acc).value.schemas| > |acc.schemas|
    ensures FoldAll(step, subjects, acc).value.schemas[|acc.schemas|].name == extractName(subjects[0])
  {
    var next := step(acc, subjects[0]).value;
    assert FoldAll(step, subjects, acc) == FoldAll(step, subjects[1..], next);
    var rs := FoldAll(step, subjects[1..], next).value.schemas;
    FoldAppends(step, extractName, subjects[1..], next);
    assert rs[|acc.schemas|] == rs[..|next.schemas|][|acc.schemas|];
  }

  /** Folding such a step names the appended schemas after the subjects, in
      order. */
  lemma {:induction false} FoldSchemaNames(step: (Compiled, Term) -> Result<Compiled>, extractName: Term -> string,
                                           subjects: seq<Term>, acc: Compiled, i: int)
    requires AppendsNamedSchema(step, extractName)
    requires FoldAll(step, subjects, acc).Ok?
    requires 0 <= i < |subjects|
    ensures |FoldAll(step, subjects, acc).value.schemas| == |acc.schemas| + |subjects|
    ensures FoldAll(step, subjects, acc).value.schemas[|acc.schemas| + i].name == extractName(subjects[i])
  {
    FoldAppends(step, extractName, subjects, acc);
    if i == 0 {
      FoldSchemaHead(step, extractName, subjects, acc);
    } else {
      var next := step(acc, subjects[0]).value;
      assert |next.schemas| == |acc.schemas| + 1;
      assert FoldAll(step, subjects, acc) == FoldAll(step, subjects[1..], next);
      FoldSchemaNames(step, extractName, subjects[1..], next, i - 1);
      assert subjects[1..][i - 1] == subjects[i];
    }
  }

  /** A pass appends one schema per subject and keeps the earlier ones. */
  lemma ParseAllAppends(g: Graph, table: seq<Namespace>, extractName: Term -> string,
                        subjects: seq<Term>, acc: Compiled)
    requires ParseAll(g, table, extractName, subjects, acc).Ok?
    ensures var r := ParseAll(g, table, extractName, subjects, acc).value;
            |r.schemas| == |acc.schemas| + |subjects| && r.schemas[..|acc.schemas|] == acc.schemas
  {
    ParseClassAppends(g, table, extractName);
    FoldAppends((c, s) => ParseClass(g, table, extractName, c, s), extractName, subjects, acc);
  }

  /** A pass adds exactly the names of its subjects to the registry's keys. */
  lemma ParseAllKeys(g: Graph, table: seq<Namespace>, extractName: Term -> string,
                     subjects: seq<Term>, acc: Compiled, k: string)
    requires ParseAll(g, table, extractName, subjects, acc).Ok?
    ensures k in Keys(ParseAll(g, table, extractName, subjects, acc).value.classes)
            <==> k in Keys(acc.classes) || NamedAmong(extractName, subjects, k)
  {
    ParseClassResolvesBefore(g, table, extractName);
    FoldKeys((c, s) => ParseClass(g, table, extractName, c, s), extractName, subjects, acc, k);
  }

  /** `generate_classes` without the file parsing and the code emission:
      every `sh:Shape` subject is compiled, then every `sh:NodeShape`
      subject, into one registry. */
  function GenerateClasses(g: Graph, bound: seq<(string, string)>, extractName: Term -> string): (r: Result<Compiled>)
    ensures r.Ok? ==> ParseAll(g, Table(bound), extractName, ShapeSubjects(g), Compiled([], [])).Ok?
    ensures AfterShapes(g, bound, extractName).Err? ==> r == Err(AfterShapes(g, bound, extractName).error)
    ensures AfterShapes(g, bound, extractName).Ok? ==>
              r == ParseAll(g, Table(bound), extractName, NodeShapeSubjects(g), AfterShapes(g, bound, extractName).value)
  {
    var table := Table(bound);
    var shapes :- ParseAll(g, table, extractName, ShapeSubjects(g), Compiled([], []));
    ParseAll(g, table, extractName, NodeShapeSubjects(g), shapes)
  }

  /** Every successful `step` resolved each nested reference of the subject
      against the classes registered before it. */
  ghost predicate ResolvesBefore(step: (Compiled, Term) -> Result<Compiled>, g: Graph, extractName: Term -> string) {
    forall c, s, prop, n :: step(c, s).Ok? && prop in PropsOf(g, s) && NestedRef(g, extractName, prop, n) ==>
      n in Keys(c.classes)
  }

  /** Every successful `step` adds exactly the subject's name to the keys. */
  ghost predicate RegistersName(step: (Compiled, Term) -> Result<Compiled>, extractName: Term -> string) {
    forall c, s, k :: step(c, s).Ok? ==>
      (k in Keys(step(c, s).value.classes) <==> k in Keys(c.classes) || k == extractName(s))
  }

  /** `parse_class` is such a step: a nested shape must already be a key of
      `classes` when the referencing shape is compiled. */
  lemma ParseClassResolvesBefore(g: Graph, table: seq<Namespace>, extractName: Term -> string)
    ensures ResolvesBefore((c, s) => ParseClass(g, table, extractName, c, s), g, extractName)
    ensures RegistersName((c, s) => ParseClass(g, table, extractName, c, s), extractName)
  {
    forall c, s, prop, n | ParseClass(g, table, extractName, c, s).Ok? && prop in PropsOf(g, s) && NestedRef(g, extractName, prop, n)
      ensures n in Keys(c.classes)
    {
      var props := PropsOf(g, s);
      var j :| 0 <= j < |props| && props[j] == prop;
      assert ParseProperty(g, table, c.classes, extractName, props[j]).Ok?;
      PropertyKind(g, table, c.classes, extractName, prop);
    }
  }

  /** Folding such a step adds exactly the subjects' names to the keys. */
  lemma {:induction false} FoldKeys(step: (Compiled, Term) -> Result<Compiled>, extractName: Term -> string,
                                    subjects: seq<Term>, acc: Compiled, k: string)
    requires RegistersName(step, extractName)
    requires FoldAll(step, subjects, acc).Ok?
    ensures k in Keys(FoldAll(step, subjects, acc).value.classes) <==> k in Keys(acc.classes) || NamedAmong(extractName, subjects, k)
  {
    if subjects != [] {
      var next := step(acc, subjects[0]).value;
      FoldKeys(step, extractName, subjects[1..], next, k);
      if NamedAmong(extractName, subjects[1..], k) {
        var i :| 0 <= i < |subjects[1..]| && extractName(subjects[1..][i]) == k;
        assert extractName(subjects[i + 1]) == k;
      }
      if NamedAmong(extractName, subjects, k) && k != extractName(subjects[0]) {
        var i :| 0 <= i < |subjects| && extractName(subjects[i]) == k;
        assert extractName(subjects[1..][i - 1]) == k;
      }
    }
  }

  /** Folding such a step: each nested reference of the `i`-th subject names
      a class known at the start or one of the subjects before it. */
  lemma {:induction false} FoldResolvesEarlier(step: (Compiled, Term) -> Result<Compiled>, g: Graph,
                                               extractName: Term -> string, subjects: seq<Term>, acc: Compiled,
                                               i: int, prop: Term, n: string)
    requires ResolvesBefore(step, g, extractName) && RegistersName(step, extractName)
    requires FoldAll(step, subjects, acc).Ok?
    requires 0 <= i < |subjects| && prop in PropsOf(g, subjects[i]) && NestedRef(g, extractName, prop, n)
    ensures n in Keys(acc.classes) || NamedAmong(extractName, subjects[..i], n)
  {
    var next := step(acc, subjects[0]).value;
    if i > 0 {
      FoldResolvesEarlier(step, g, extractName, subjects[1..], next, i - 1, prop, n);
      assert subjects[1..][i - 1] == subjects[i];
      if NamedAmong(extractName, subjects[1..][..i - 1], n) {
        var j :| 0 <= j < i - 1 && extractName(subjects[1..][..i - 1][j]) == n;
        assert subjects[..i][j + 1] == subjects[1..][..i - 1][j];
      } else if n !in Keys(acc.classes) {
        assert subjects[..i][0] == subjects[0];
      }
    }
  }

  /** The registry and schemas after the `sh:Shape` pass alone. */
  function AfterShapes(g: Graph, bound: seq<(string, string)>, extractName: Term -> string): Result<Compiled> {
    ParseAll(g, Table(bound), extractName, ShapeSubjects(g), Compiled([], []))
  }

  /** The schema of the `i`-th subject of a pass. */
  lemma ParseAllSchemaName(g: Graph, table: seq<Namespace>, extractName: Term -> string,
                           subjects: seq<Term>, acc: Compiled, i: int)
    requires ParseAll(g, table, extractName, subjects, acc).Ok?
    requires 0 <= i < |subjects|
    ensures |ParseAll(g, table, extractName, subjects, acc).value.schemas| == |acc.schemas| + |subjects|
    ensures ParseAll(g, table, extractName, subjects, acc).value.schemas[|acc.schemas| + i].name == extractName(subjects[i])
  {
    ParseClassAppends(g, table, extractName);
    FoldSchemaNames((c, s) => ParseClass(g, table, extractName, c, s), extractName, subjects, acc, i);
  }

  /** The NodeShape pass continues from the Shape pass. */
  lemma GenerateClassesPasses(g: Graph, bound: seq<(string, string)>, extractName: Term -> string)
    requires GenerateClasses(g, bound, extractName).Ok?
    ensures AfterShapes(g, bound, extractName).Ok?
    ensures var first := AfterShapes(g, bound, extractName).value;
            var all := GenerateClasses(g, bound, extractName).value;
            && ParseAll(g, Table(bound), extractName, NodeShapeSubjects(g), first) == Ok(all)
            && |first.schemas| == |ShapeSubjects(g)|
            && |all.schemas| == |ShapeSubjects(g)| + |NodeShapeSubjects(g)|
            && all.schemas[..|ShapeSubjects(g)|] == first.schemas
  {
    var first := AfterShapes(g, bound, extractName).value;
    ParseAllAppends(g, Table(bound), extractName, ShapeSubjects(g), Compiled([], []));
    ParseAllAppends(g, Table(bound), extractName, NodeShapeSubjects(g), first);
  }

  /** What `generate_classes` emits, first part: one schema per
      `sh:Shape` subject, in order. */
  lemma GenerateClassesShapeSchemas(g: Graph, bound: seq<(string, string)>, extractName: Term -> string, i: int)
    requires GenerateClasses(g, bound, extractName).Ok?
    requires 0 <= i < |ShapeSubjects(g)|
    ensures |GenerateClasses(g, bound, extractName).value.schemas| == |ShapeSubjects(g)| + |NodeShapeSubjects(g)|
    ensures GenerateClasses(g, bound, extractName).value.schemas[i].name == extractName(ShapeSubjects(g)[i])
  {
    GenerateClassesPasses(g, bound, extractName);
    var schemas := GenerateClasses(g, bound, extractName).value.schemas;
    ParseAllSchemaName(g, Table(bound), extractName, ShapeSubjects(g), Compiled([], []), i);
    assert schemas[i] == schemas[..|ShapeSubjects(g)|][i];
  }

  /** What `generate_classes` emits after those: one schema per
      `sh:NodeShape` subject, in order. */
  lemma GenerateClassesNodeShapeSchemas(g: Graph, bound: seq<(string, string)>, extractName: Term -> string, j: int)
    requires GenerateClasses(g, bound, extractName).Ok?
    requires 0 <= j < |NodeShapeSubjects(g)|
    ensures |GenerateClasses(g, bound, extractName).value.schemas| == |ShapeSubjects(g)| + |NodeShapeSubjects(g)|
    ensures GenerateClasses(g, bound, extractName).value.schemas[|ShapeSubjects(g)|..][j].name
            == extractName(NodeShapeSubjects(g)[j])
  {
    var first := AfterShapes(g, bound, extractName).value;
    var all := GenerateClasses(g, bound, extractName).value;
    assert ParseAll(g, Table(bound), extractName, NodeShapeSubjects(g), first) == Ok(all)
           && |first.schemas| == |ShapeSubjects(g)| by {
      GenerateClassesPasses(g, bound, extractName);
    }
    SecondPassSchemaName(g, Table(bound), extractName, ShapeSubjects(g), NodeShapeSubjects(g), first, all, j);
  }

  /** The schema of the `j`-th subject of a pass that started after the
      schemas of `before` and ended in `all`. */
  lemma SecondPassSchemaName(g: Graph, table: seq<Namespace>, extractName: Term -> string,
                             before: seq<Term>, subjects: seq<Term>, first: Compiled, all: Compiled, j: int)
    requires ParseAll(g, table, extractName, subjects, first) == Ok(all)
    requires |first.schemas| == |before| && 0 <= j < |subjects|
    ensures |all.schemas| == |before| + |subjects|
    ensures all.schemas[|before|..][j].name == extractName(subjects[j])
  {
    ParseAllSchemaName(g, table, extractName, subjects, first, j);
    assert all.schemas[|before|..][j] == all.schemas[|before| + j];
  }

  /** What `generate_classes` returns: a class under the name of every
      `sh:Shape` and `sh:NodeShape` subject, and nothing else. */
  lemma GenerateClassesKeys(g: Graph, bound: seq<(string, string)>, extractName: Term -> string, k: string)
    requires GenerateClasses(g, bound, extractName).Ok?
    ensures k in Keys(GenerateClasses(g, bound, extractName).value.classes) <==>
            NamedAmong(extractName, ShapeSubjects(g), k) || NamedAmong(extractName, NodeShapeSubjects(g), k)
  {
    var table := Table(bound);
    var first := AfterShapes(g, bound, extractName).value;
    ParseAllKeys(g, table, extractName, ShapeSubjects(g), Compiled([], []), k);
    ParseAllKeys(g, table, extractName, NodeShapeSubjects(g), first, k);
  }

  /** Within the Shape pass a reference to a shape that is not compiled
      earlier in the same pass aborts compilation. */
  lemma ShapeForwardReferenceFails(g: Graph, bound: seq<(string, string)>, extractName: Term -> string,
                                   i: int, prop: Term, n: string)
    requires 0 <= i < |ShapeSubjects(g)|
    requires prop in PropsOf(g, ShapeSubjects(g)[i]) && NestedRef(g, extractName, prop, n)
    requires !NamedAmong(extractName, ShapeSubjects(g)[..i], n)
    ensures GenerateClasses(g, bound, extractName).Err?
  {
    if GenerateClasses(g, bound, extractName).Ok? {
      ParseClassResolvesBefore(g, Table(bound), extractName);
      FoldResolvesEarlier((c, s) => ParseClass(g, Table(bound), extractName, c, s), g, extractName,
                          ShapeSubjects(g), Compiled([], []), i, prop, n);
    }
  }

  /** In the NodeShape pass a reference must name a Shape subject or a
      NodeShape compiled earlier; anything else aborts compilation. */
  lemma NodeShapeForwardReferenceFails(g: Graph, bound: seq<(string, string)>, extractName: Term -> string,
                                       i: int, prop: Term, n: string)
    requires 0 <= i < |NodeShapeSubjects(g)|
    requires prop in PropsOf(g, NodeShapeSubjects(g)[i]) && NestedRef(g, extractName, prop, n)
    requires !NamedAmong(extractName, ShapeSubjects(g), n)
    requires !NamedAmong(extractName, NodeShapeSubjects(g)[..i], n)
    ensures GenerateClasses(g, bound, extractName).Err?
  {
    if GenerateClasses(g, bound, extractName).Ok? {
      var first := AfterShapes(g, bound, extractName).value;
      ParseClassResolvesBefore(g, Table(bound), extractName);
      FoldResolvesEarlier((c, s) => ParseClass(g, Table(bound), extractName, c, s), g, extractName,
                          NodeShapeSubjects(g), first, i, prop, n);
      ParseAllKeys(g, Table(bound), extractName, ShapeSubjects(g), Compiled([], []), n);
    }
  }

  /** Every Shape subject is registered before the NodeShape pass starts, so
      a NodeShape's reference to any Shape is found whatever the order of the
      Shape subjects. */
  lemma NodeShapeSeesEveryShape(g: Graph, bound: seq<(string, string)>, extractName: Term -> string,
                                i: int, n: string)
    requires AfterShapes(g, bound, extractName).Ok?
    requires 0 <= i <= |NodeShapeSubjects(g)|
    requires ParseAll(g, Table(bound), extractName, NodeShapeSubjects(g)[..i], AfterShapes(g, bound, extractName).value).Ok?
    requires NamedAmong(extractName, ShapeSubjects(g), n)
    ensures ResolveNested(ParseAll(g, Table(bound), extractName, NodeShapeSubjects(g)[..i],
                                   AfterShapes(g, bound, extractName).value).value.classes, n).Ok?
  {
    ParseAllKeys(g, Table(bound), extractName, ShapeSubjects(g), Compiled([], []), n);
    ParseAllKeys(g, Table(bound), extractName, NodeShapeSubjects(g)[..i], AfterShapes(g, bound, extractName).value, n);
  }

  /** The reads of one property go through: `sh:name` is a literal with a
      Python value, `sh:path` is present, and `sh:maxCount` is absent, falsy
      or a literal. */
  ghost predicate PropertyReads(g: Graph, prop: Term) {
    && ValueObject(g, prop, SH_NAME).Some?
    && ValueObject(g, prop, SH_NAME).value.Literal?
    && ValueObject(g, prop, SH_NAME).value.value.Some?
    && ValueObject(g, prop, SH_PATH).Some?
    && (TruthyOpt(ValueObject(g, prop, SH_MAX_COUNT)) ==> ValueObject(g, prop, SH_MAX_COUNT).value.Literal?)
  }

  /** No namespace of the table has an empty base. */
  ghost predicate NonEmptyBases(table: seq<Namespace>) {
    forall k :: 0 <= k < |table| ==> table[k].base != ""
  }

  /** A property whose reads go through and whose nested reference, if
      any, names a registered class compiles. */
  lemma ParsePropertySucceeds(g: Graph, table: seq<Namespace>, classes: Dict<string, ShapeClass>,
                              extractName: Term -> string, prop: Term)
    requires PropertyReads(g, prop) && NonEmptyBases(table)
    requires forall n :: NestedRef(g, extractName, prop, n) ==> n in Keys(classes)
    ensures ParseProperty(g, table, classes, extractName, prop).Ok?
  {
    var d := Declare(g, prop);
    if TruthyOpt(d.dataType) {
      ConvertSucceeds(table, Lexical(d.dataType.value));
    } else {
      assert NestedRef(g, extractName, prop, extractName(d.node.value));
    }
    ConvertSucceeds(table, Lexical(ValueObject(g, prop, SH_PATH).value));
  }

  /** A shape whose properties all read cleanly and refer only to
      registered classes compiles. */
  lemma ParseClassSucceeds(g: Graph, table: seq<Namespace>, extractName: Term -> string,
                           acc: Compiled, subject: Term)
    requires NonEmptyBases(table)
    requires forall prop :: prop in PropsOf(g, subject) ==> PropertyReads(g, prop)
    requires forall prop, n :: prop in PropsOf(g, subject) && NestedRef(g, extractName, prop, n) ==> n in Keys(acc.classes)
    ensures ParseClass(g, table, extractName, acc, subject).Ok?
  {
    var props := PropsOf(g, subject);
    forall i | 0 <= i < |props| ensures ParseProperty(g, table, acc.classes, extractName, props[i]).Ok? {
      ParsePropertySucceeds(g, table, acc.classes, extractName, props[i]);
    }
    ConvertSucceeds(table, TargetText(ValueObject(g, subject, SH_TARGET_CLASS)));
  }

  /** Every property of every subject reads cleanly. */
  ghost predicate AllRead(g: Graph, subjects: seq<Term>) {
    forall i, prop :: 0 <= i < |subjects| && prop in PropsOf(g, subjects[i]) ==> PropertyReads(g, prop)
  }

  /** Every nested reference of the `i`-th subject names a class in `known`
      or one of the subjects before it. */
  ghost predicate RefersBack(g: Graph, extractName: Term -> string, subjects: seq<Term>, known: seq<string>) {
    forall i, prop, n :: 0 <= i < |subjects| && prop in PropsOf(g, subjects[i]) && NestedRef(g, extractName, prop, n) ==>
      n in known || NamedAmong(extractName, subjects[..i], n)
  }

  /** A pass compiles when every property reads cleanly and every nested
      reference names a class known at the start or an earlier subject. */
  lemma {:induction false} ParseAllSucceeds(g: Graph, table: seq<Namespace>, extractName: Term -> string,
                                            subjects: seq<Term>, acc: Compiled)
    requires NonEmptyBases(table)
    requires AllRead(g, subjects) && RefersBack(g, extractName, subjects, Keys(acc.classes))
    ensures ParseAll(g, table, extractName, subjects, acc).Ok?
  {
    if subjects != [] {
      FirstSubjectSucceeds(g, table, extractName, subjects, acc);
      var next := ParseClass(g, table, extractName, acc, subjects[0]).value;
      ParseAllStep(g, table, extractName, subjects, acc);
      ShiftResolved(g, extractName, subjects, Keys(acc.classes), Keys(next.classes));
      assert AllRead(g, subjects[1..]) by {
        forall i, prop | 0 <= i < |subjects[1..]| && prop in PropsOf(g, subjects[1..][i]) ensures PropertyReads(g, prop) {
          assert subjects[1..][i] == subjects[i + 1];
        }
      }
      ParseAllSucceeds(g, table, extractName, subjects[1..], next);
    }
  }

  /** The first subject of such a pass compiles, keeping the earlier keys
      and adding its own name. */
  lemma FirstSubjectSucceeds(g: Graph, table: seq<Namespace>, extractName: Term -> string,
                             subjects: seq<Term>, acc: Compiled)
    requires NonEmptyBases(table) && subjects != []
    requires AllRead(g, subjects) && RefersBack(g, extractName, subjects, Keys(acc.classes))
    ensures ParseClass(g, table, extractName, acc, subjects[0]).Ok?
    ensures var next := ParseClass(g, table, extractName, acc, subjects[0]).value;
            && extractName(subjects[0]) in Keys(next.classes)
            && forall k :: k in Keys(acc.classes) ==> k in Keys(next.classes)
  {
    forall prop, n | prop in PropsOf(g, subjects[0]) && NestedRef(g, extractName, prop, n) ensures n in Keys(acc.classes) {
      assert !NamedAmong(extractName, subjects[..0], n);
    }
    ParseClassSucceeds(g, table, extractName, acc, subjects[0]);
  }

  /** Once the first subject is registered, what the rest of a pass may
      refer to is the registry after it plus the subjects before them. */
  lemma ShiftResolved(g: Graph, extractName: Term -> string, subjects: seq<Term>, before: seq<string>, after: seq<string>)
    requires subjects != [] && extractName(subjects[0]) in after
    requires forall k :: k in before ==> k in after
    requires RefersBack(g, extractName, subjects, before)
    ensures RefersBack(g, extractName, subjects[1..], after)
  {
    var rest := subjects[1..];
    forall i, prop, n | 0 <= i < |rest| && prop in PropsOf(g, rest[i]) && NestedRef(g, extractName, prop, n)
      ensures n in after || NamedAmong(extractName, rest[..i], n)
    {
      assert rest[i] == subjects[i + 1];
      if n !in before {
        var j :| 0 <= j < i + 1 && extractName(subjects[..i + 1][j]) == n;
        if j > 0 {
          assert rest[..i][j - 1] == subjects[..i + 1][j];
        }
      }
    }
  }

  /** A shapes graph `generate_classes` compiles: no empty namespace base,
      every property of a Shape or NodeShape reads cleanly, and every nested
      reference names a subject compiled before it, taking the Shapes first
      and then the NodeShapes. */
  ghost predicate Compilable(g: Graph, bound: seq<(string, string)>, extractName: Term -> string) {
    && (forall k :: 0 <= k < |bound| ==> bound[k].1 != "")
    && AllRead(g, ShapeSubjects(g) + NodeShapeSubjects(g))
    && RefersBack(g, extractName, ShapeSubjects(g) + NodeShapeSubjects(g), [])
  }

  /** A compilable shapes graph compiles: `generate_classes` raises only
      for the causes it checks. */
  lemma GenerateClassesSucceeds(g: Graph, bound: seq<(string, string)>, extractName: Term -> string)
    requires Compilable(g, bound, extractName)
    ensures GenerateClasses(g, bound, extractName).Ok?
  {
    var table := Table(bound);
    var shapes := ShapeSubjects(g);
    var nodes := NodeShapeSubjects(g);
    ShapesPassSucceeds(g, bound, extractName);
    var first := AfterShapes(g, bound, extractName).value;
    forall n | NamedAmong(extractName, shapes, n) ensures n in Keys(first.classes) {
      ParseAllKeys(g, table, extractName, shapes, Compiled([], []), n);
    }
    SecondPassRefersBack(g, extractName, shapes, nodes, Keys(first.classes));
    AllReadSuffix(g, shapes, nodes);
    ParseAllSucceeds(g, table, extractName, nodes, first);
  }

  /** The `sh:Shape` pass of a compilable graph compiles. */
  lemma ShapesPassSucceeds(g: Graph, bound: seq<(string, string)>, extractName: Term -> string)
    requires Compilable(g, bound, extractName)
    ensures AfterShapes(g, bound, extractName).Ok?
  {
    var shapes := ShapeSubjects(g);
    var all := shapes + NodeShapeSubjects(g);
    forall i, prop | 0 <= i < |shapes| && prop in PropsOf(g, shapes[i]) ensures PropertyReads(g, prop) {
      assert all[i] == shapes[i];
    }
    forall i, prop, n | 0 <= i < |shapes| && prop in PropsOf(g, shapes[i]) && NestedRef(g, extractName, prop, n)
      ensures n in Keys(Compiled([], []).classes) || NamedAmong(extractName, shapes[..i], n)
    {
      assert all[i] == shapes[i] && all[..i] == shapes[..i];
    }
    ParseAllSucceeds(g, Table(bound), extractName, shapes, Compiled([], []));
  }

  /** The properties of the second part of a sequence read cleanly when
      those of the whole do. */
  lemma AllReadSuffix(g: Graph, shapes: seq<Term>, nodes: seq<Term>)
    requires AllRead(g, shapes + nodes)
    ensures AllRead(g, nodes)
  {
    forall i, prop | 0 <= i < |nodes| && prop in PropsOf(g, nodes[i]) ensures PropertyReads(g, prop) {
      assert (shapes + nodes)[|shapes| + i] == nodes[i];
    }
  }

  /** In the NodeShape pass, a reference back to a Shape is a reference to
      the registry the Shape pass left. */
  lemma SecondPassRefersBack(g: Graph, extractName: Term -> string, shapes: seq<Term>, nodes: seq<Term>, known: seq<string>)
    requires RefersBack(g, extractName, shapes + nodes, [])
    requires forall n :: NamedAmong(extractName, shapes, n) ==> n in known
    ensures RefersBack(g, extractName, nodes, known)
  {
    var all := shapes + nodes;
    forall i, prop, n | 0 <= i < |nodes| && prop in PropsOf(g, nodes[i]) && NestedRef(g, extractName, prop, n)
      ensures n in known || NamedAmong(extractName, nodes[..i], n)
    {
      assert all[|shapes| + i] == nodes[i];
      var j :| 0 <= j < |shapes| + i && extractName(all[..|shapes| + i][j]) == n;
      if j < |shapes| {
        assert shapes[j] == all[..|shapes| + i][j];
      } else {
        assert nodes[..i][j - |shapes|] == all[..|shapes| + i][j];
      }
    }
  }
}

=== FILE: shape_scanner.dfy ===
/** The NodeShape loop of the top-level `shacl_class_generator.py`: for each
    `sh:NodeShape` subject it reads `sh:name` and `sh:targetClass`, builds
    the `paths`, `data_types` and `max_counts` dictionaries and one
    `RDFProperty` per property name, and files the resulting class under its
    target class in `shape_by_targetClass`. */
module ShapeScanner {
  import opened Outcomes
  import opened Rdf
  import opened PyDict
  import Descriptors

  /** What one iteration of the property loop reads. Nothing is defaulted:
      an absent path, `sh:maxCount` or `sh:datatype` is `None`. */
  datatype ScannedProp = ScannedProp(name: string, path: Option<Term>, maxCount: Option<Term>, dataType: Option<Term>)

  /** The class built for one NodeShape: `__name__`, `_target_class`,
      `_paths`, `_data_types`, `_max_counts` and the descriptors. */
  datatype LegacyClass = LegacyClass(
    name: string,
    targetClass: Option<Term>,
    paths: Dict<string, Option<Term>>,
    dataTypes: Dict<string, Option<Term>>,
    maxCounts: Dict<string, Option<Term>>,
    attributes: Dict<string, Descriptors.Descriptor>)

  /** One iteration of the property loop. `sh:name` is read through
      `.value` (an `AttributeError` when absent or not a literal), and
      `RDFProperty(name)` computes `"_" + name`, a `TypeError` unless the
      name is a string. */
  function ScanProperty(g: Graph, prop: Term): (r: Result<ScannedProp>)
    ensures ValueAttr(ValueObject(g, prop, SH_NAME)).Err? ==> r == Err(NoValueAttribute)
    ensures ValueAttr(ValueObject(g, prop, SH_NAME)).Ok?
            && !(exists s :: ValueAttr(ValueObject(g, prop, SH_NAME)).value == Some(StrValue(s))) ==>
              r == Err(NameNotText)
    ensures r.Ok? <==> exists lex, s :: ValueObject(g, prop, SH_NAME) == Some(Literal(lex, Some(StrValue(s))))
    ensures forall lex, s :: ValueObject(g, prop, SH_NAME) == Some(Literal(lex, Some(StrValue(s)))) ==>
      r == Ok(ScannedProp(s, ValueObject(g, prop, SH_PATH), ValueObject(g, prop, SH_MAX_COUNT),
                          ValueObject(g, prop, SH_DATATYPE)))
  {
    var name :- ValueAttr(ValueObject(g, prop, SH_NAME));
    match name
    case Some(StrValue(s)) =>
      Ok(ScannedProp(s, ValueObject(g, prop, SH_PATH), ValueObject(g, prop, SH_MAX_COUNT),
                     ValueObject(g, prop, SH_DATATYPE)))
    case _ => Err(NameNotText)
  }

  function PathPairs(ps: seq<ScannedProp>): (r: seq<(string, Option<Term>)>)
    ensures |r| == |ps| && forall i :: 0 <= i < |ps| ==> r[i] == (ps[i].name, ps[i].path)
  {
    seq(|ps|, i requires 0 <= i < |ps| => (ps[i].name, ps[i].path))
  }

  function DataTypePairs(ps: seq<ScannedProp>): (r: seq<(string, Option<Term>)>)
    ensures |r| == |ps| && forall i :: 0 <= i < |ps| ==> r[i] == (ps[i].name, ps[i].dataType)
  {
    seq(|ps|, i requires 0 <= i < |ps| => (ps[i].name, ps[i].dataType))
  }

  function MaxCountPairs(ps: seq<ScannedProp>): (r: seq<(string, Option<Term>)>)
    ensures |r| == |ps| && forall i :: 0 <= i < |ps| ==> r[i] == (ps[i].name, ps[i].maxCount)
  {
    seq(|ps|, i requires 0 <= i < |ps| => (ps[i].name, ps[i].maxCount))
  }

  function AttributePairs(ps: seq<ScannedProp>): (r: seq<(string, Descriptors.Descriptor)>)
    ensures |r| == |ps| && forall i :: 0 <= i < |ps| ==> r[i] == (ps[i].name, Descriptors.RdfProperty(ps[i].name))
  {
    seq(|ps|, i requires 0 <= i < |ps| => (ps[i].name, Descriptors.RdfProperty(ps[i].name)))
  }

  /** The class a NodeShape named `name` with target class `target` and
      scanned properties `ps` becomes. */
  function Build(name: string, target: Option<Term>, ps: seq<ScannedProp>): LegacyClass {
    LegacyClass(name, target, PutAll([], PathPairs(ps)), PutAll([], DataTypePairs(ps)),
                PutAll([], MaxCountPairs(ps)), PutAll([], AttributePairs(ps)))
  }

  /** The property loop over `props`, in order; the first property that
      fails stops the loop. */
  function ScanProperties(g: Graph, props: seq<Term>): (r: Result<seq<ScannedProp>>)
    ensures r.Ok? <==> forall i :: 0 <= i < |props| ==> ScanProperty(g, props[i]).Ok?
    ensures r.Ok? ==> |r.value| == |props|
    ensures r.Ok? ==> forall i :: 0 <= i < |props| ==> ScanProperty(g, props[i]) == Ok(r.value[i])
    ensures r.Err? ==> exists i :: FirstFailure(p => ScanProperty(g, p), props, i) && ScanProperty(g, props[i]) == Err(r.error)
  {
    MapAll(p => ScanProperty(g, p), props)
  }

  /** The property records the property loop reads for `subject`. */
  function Scanned(g: Graph, subject: Term): Result<seq<ScannedProp>> {
    ScanProperties(g, Objects(g, Some(subject), Some(SH_PROPERTY)))
  }

  /** The namespace keys `type(...)` interprets itself and rejects an
      `RDFProperty` under: `__qualname__` must be a string, `__classcell__`
      a cell, and `__slots__` iterable. */
  predicate TypeRejects(name: string) {
    name == "__qualname__" || name == "__classcell__" || name == "__slots__"
  }

  /** Some scanned property has a name `type(...)` rejects. */
  predicate HasRejectedName(ps: seq<ScannedProp>) {
    exists i :: 0 <= i < |ps| && TypeRejects(ps[i].name)
  }

  /** One iteration of the NodeShape loop: the class and the target class it
      is filed under. The properties are scanned first; `type(schema_name,
      ...)` then needs a string, so a shape without `sh:name` is a
      `TypeError`, and so is a property whose name is one of the keys
      `type(...)` rejects an `RDFProperty` under. */
  function ScanShape(g: Graph, subject: Term): (r: Result<(Option<Term>, LegacyClass)>)
    ensures Scanned(g, subject).Err? ==> r == Err(Scanned(g, subject).error)
    ensures Scanned(g, subject).Ok? && ValueObject(g, subject, SH_NAME).None? ==> r == Err(ClassNameNotText)
    ensures Scanned(g, subject).Ok? && ValueObject(g, subject, SH_NAME).Some? ==>
              (r.Ok? <==> forall i :: 0 <= i < |Scanned(g, subject).value| ==> !TypeRejects(Scanned(g, subject).value[i].name))
    ensures Scanned(g, subject).Ok? && ValueObject(g, subject, SH_NAME).Some? && HasRejectedName(Scanned(g, subject).value) ==>
              r == Err(ClassAttributeRejected)
    ensures r.Ok? ==> && r.value.0 == ValueObject(g, subject, SH_TARGET_CLASS)
                      && r.value.1 == Build(Lexical(ValueObject(g, subject, SH_NAME).value), r.value.0,
                                            Scanned(g, subject).value)
  {
    var ps :- Scanned(g, subject);
    var schemaName := ValueObject(g, subject, SH_NAME);
    var target := ValueObject(g, subject, SH_TARGET_CLASS);
    if schemaName.None? then Err(ClassNameNotText)
    else if HasRejectedName(ps) then Err(ClassAttributeRejected)
    else Ok((target, Build(Lexical(schemaName.value), target, ps)))
  }

  /** `_paths`, `_data_types`, `_max_counts` and the descriptors have the
      same keys in the same order, no key twice, and a key is there exactly
      when some property carries that `sh:name`. */
  lemma BuildKeys(name: string, target: Option<Term>, ps: seq<ScannedProp>, k: string)
    ensures var c := Build(name, target, ps);
            && Keys(c.paths) == Keys(c.dataTypes) == Keys(c.maxCounts) == Keys(c.attributes)
            && Wf(c.paths) && Wf(c.attributes)
            && (k in Keys(c.paths) <==> exists i :: 0 <= i < |ps| && ps[i].name == k)
  {
    PutAllSameKeys([], [], PathPairs(ps), DataTypePairs(ps));
    PutAllSameKeys([], [], PathPairs(ps), MaxCountPairs(ps));
    PutAllSameKeys([], [], PathPairs(ps), AttributePairs(ps));
    PutAllWf([], PathPairs(ps));
    PutAllWf([], AttributePairs(ps));
    PutAllKeys([], PathPairs(ps), k);
  }

  /** Each property name maps to the path, datatype and `sh:maxCount` read
      for the last property of that name, `None` standing for an absent one,
      and to an `RDFProperty` of that name. */
  lemma BuildEntries(name: string, target: Option<Term>, ps: seq<ScannedProp>, i: int)
    requires 0 <= i < |ps| && forall j :: i < j < |ps| ==> ps[j].name != ps[i].name
    ensures var c := Build(name, target, ps);
            && Get(c.paths, ps[i].name) == Some(ps[i].path)
            && Get(c.dataTypes, ps[i].name) == Some(ps[i].dataType)
            && Get(c.maxCounts, ps[i].name) == Some(ps[i].maxCount)
            && Get(c.attributes, ps[i].name) == Some(Descriptors.RdfProperty(ps[i].name))
  {
    var c := Build(name, target, ps);
    assert Get(c.paths, ps[i].name) == Some(ps[i].path) by {
      PutAllLastWins([], PathPairs(ps), i);
    }
    assert Get(c.dataTypes, ps[i].name) == Some(ps[i].dataType) by {
      PutAllLastWins([], DataTypePairs(ps), i);
    }
    assert Get(c.maxCounts, ps[i].name) == Some(ps[i].maxCount) by {
      PutAllLastWins([], MaxCountPairs(ps), i);
    }
    assert Get(c.attributes, ps[i].name) == Some(Descriptors.RdfProperty(ps[i].name)) by {
      PutAllLastWins([], AttributePairs(ps), i);
    }
  }

  /** Every NodeShape scanned, in order. */
  function ScanShapes(g: Graph): (r: Result<seq<(Option<Term>, LegacyClass)>>)
    ensures r.Ok? <==> forall i :: 0 <= i < |NodeShapeSubjects(g)| ==> ScanShape(g, NodeShapeSubjects(g)[i]).Ok?
    ensures r.Ok? ==> |r.value| == |NodeShapeSubjects(g)|
    ensures r.Ok? ==> forall i :: 0 <= i < |NodeShapeSubjects(g)| ==> ScanShape(g, NodeShapeSubjects(g)[i]) == Ok(r.value[i])
    ensures r.Err? ==> exists i :: FirstFailure(s => ScanShape(g, s), NodeShapeSubjects(g), i)
                                   && ScanShape(g, NodeShapeSubjects(g)[i]) == Err(r.error)
  {
    MapAll(s => ScanShape(g, s), NodeShapeSubjects(g))
  }

  /** The whole NodeShape loop, building `shape_by_targetClass`. */
  function ScanAll(g: Graph): (r: Result<Dict<Option<Term>, LegacyClass>>)
    ensures r.Ok? <==> ScanShapes(g).Ok?
    ensures r.Err? ==> r.error == ScanShapes(g).error
    ensures r.Ok? ==> r.value == PutAll([], ScanShapes(g).value)
  {
    var shapes :- ScanShapes(g);
    Ok(PutAll([], shapes))
  }

  /** The key each scanned NodeShape is filed under is its target class. */
  lemma ShapeTargets(g: Graph)
    requires ScanShapes(g).Ok?
    ensures forall j :: 0 <= j < |NodeShapeSubjects(g)| ==>
              ScanShapes(g).value[j].0 == ValueObject(g, NodeShapeSubjects(g)[j], SH_TARGET_CLASS)
  {
    forall j | 0 <= j < |NodeShapeSubjects(g)|
      ensures ScanShapes(g).value[j].0 == ValueObject(g, NodeShapeSubjects(g)[j], SH_TARGET_CLASS)
    {
      assert ScanShape(g, NodeShapeSubjects(g)[j]) == Ok(ScanShapes(g).value[j]);
    }
  }

  /** `shape_by_targetClass` maps each NodeShape's target class to its
      class; when several NodeShapes share a target class the last one
      wins. */
  lemma ShapeByTargetClass(g: Graph, i: int)
    requires ScanAll(g).Ok?
    requires 0 <= i < |NodeShapeSubjects(g)|
    requires forall j :: i < j < |NodeShapeSubjects(g)| ==>
               ValueObject(g, NodeShapeSubjects(g)[j], SH_TARGET_CLASS) != ValueObject(g, NodeShapeSubjects(g)[i], SH_TARGET_CLASS)
    ensures Get(ScanAll(g).value, ValueObject(g, NodeShapeSubjects(g)[i], SH_TARGET_CLASS))
            == Some(ScanShape(g, NodeShapeSubjects(g)[i]).value.1)
  {
    var shapes := ScanShapes(g).value;
    ShapeTargets(g);
    PutAllLastWins([], shapes, i);
    assert ScanShape(g, NodeShapeSubjects(g)[i]) == Ok(shapes[i]);
  }

  /** The keys of `shape_by_targetClass` are exactly the target classes of
      the NodeShapes, `None` among them when some NodeShape has none. */
  lemma ShapeByTargetClassKeys(g: Graph, t: Option<Term>)
    requires ScanAll(g).Ok?
    ensures t in Keys(ScanAll(g).value) <==>
            exists j :: 0 <= j < |NodeShapeSubjects(g)| && ValueObject(g, NodeShapeSubjects(g)[j], SH_TARGET_CLASS) == t
  {
    var shapes := ScanShapes(g).value;
    var subjects := NodeShapeSubjects(g);
    assert ScanAll(g).value == PutAll([], shapes);
    PutAllKeys([], shapes, t);
    assert Keys<Option<Term>, LegacyClass>([]) == [];
    ShapeTargets(g);
    if t in Keys(PutAll([], shapes)) {
      var j :| 0 <= j < |shapes| && shapes[j].0 == t;
      assert ValueObject(g, subjects[j], SH_TARGET_CLASS) == t;
    } else {
      forall j | 0 <= j < |subjects| ensures ValueObject(g, subjects[j], SH_TARGET_CLASS) != t {
        assert shapes[j].0 != t;
      }
    }
  }
}
